=== FILE: README.md ===
# Treadmill controller and FTMS telemetry decoder

A Dafny model of the core of a browser app that drives a Bluetooth treadmill
through the Fitness Machine Service (FTMS). The model has two parts.

- **The Treadmill Data decoder** (`parseTreadmillNotification` and its flag
  parser). It reads a 16-bit little-endian flag word and then walks a fixed
  table of optional fields, defined in section 3.234 of the Bluetooth GATT
  Specification Supplement. The cursor advances past a field only when that
  field's flag bit is set. Bit 0 is the "More Data" bit, and a frame that has
  it set is refused. Every read is bounds-checked, as the DataView getters are.
  The model is table-driven: `Ftms.Layout` lists the 18 fields with their
  encodings and governing bits. `Ftms.ReadFrom` walks any such table, and
  `Ftms.EncodeFrom` is its inverse.
- **The `Treadmill` controller.** Each event handler is a pure function
  from the controller state to the next state plus the list of effects it
  requests. The handlers cover:
  - connecting;
  - a dropped link, with retries on an exponential backoff;
  - `cancelReconnect` and `disconnect`;
  - the clamped target speed and the speed adjustments;
  - telemetry gated by the training status;
  - the session record assembled when a workout ends.

  Effects are events dispatched to the document, timers, notification
  start and stop, and control-point writes. `Treadmill.Run` folds the handlers
  over a sequence of events, and `TreadmillProps` states what holds over whole
  runs.

Files:
- `wrappers.dfy`: `Option` and `Result`.
- `wire.dfy`: byte getters and encoders.
- `ftms.dfy`: the decoder.
- `units.dfy`: unit conversions and `formatTime`.
- `training_status.dfy`: `toTrainingStatus`.
- `treadmill.dfy`: the handlers.
- `treadmill_props.dfy`: properties of runs.

Speeds stay raw in the decoder, in hundredths of a km/h. The division by 100
that src/bluetooth.ts:199 and 204 perform is applied in
`Treadmill.ToTreadmillData` instead. Of the two divided fields, only the
instantaneous speed is used anywhere further on.

Reconnect timers are counted, not just named. `attemptReconnect` stores each
new timer in the one handle without clearing the old one, and `cancelReconnect`
and `disconnect` clear only the timer the handle names. A link drop while a
retry is still pending therefore leaves a timer that nothing can cancel. The
state keeps the named timer (`timer`) and the number of such leaked timers
(`leaked`); the event `LeakedTimerFired` runs the callback of one of them.
`TreadmillProps.LeakedTimerRevives` shows such a timer reconnecting after
`cancelReconnect`.

## Model

| member | source | states |
|---|---|---|
| Wire.GetUint16 | src/bluetooth.ts:194 | A little-endian u16 read succeeds exactly when two octets remain, and otherwise throws a range error. |
| Wire.GetUint8 | src/bluetooth.ts:252-264 | A one-octet read, as for energy per minute, heart rate and MET, succeeds exactly when an octet remains, and its value is in [0, 256). |
| Wire.GetInt16 | src/bluetooth.ts:217-220 | The two's-complement reading of the little-endian u16: values of 0x8000 and above are shifted down by 65536. Bounds-checked. |
| Wire.GetUint24 | src/bluetooth.ts:210 | `getUint16(pos) + (getUint8(pos + 2) << 16)`: in [0, 2^24), and it needs three octets. |
| Wire.Get | src/bluetooth.ts:194-286 | Succeeds iff `pos + width <= length`. A success lies in the kind's range, and a failure is a range error. |
| Wire.GetEncode | src/bluetooth.ts:194-286 | Reading a field back from its encoding, wherever it sits in a buffer, yields the encoded value. |
| Wire.EncodeGet | src/bluetooth.ts:194-286 | A successful read, re-encoded, gives back exactly the octets read. |
| Wire.GetFrame | src/bluetooth.ts:194-286 | A read depends only on the octets it covers. |
| Ftms.FlagWord | src/bluetooth.ts:194 | The flag word is a u16. |
| Ftms.BitSetDigit | src/bluetooth.ts:172-184 | The mask test `(w & (1 << k)) != 0` is binary digit `k` of `w`, i.e. `w / 2^k mod 2 == 1`. |
| Ftms.PresentIffFlagBit | src/bluetooth.ts:168-186 | Field group `k`, for `k` in 1..12, is in the frame iff digit `k` of the flag word is 1. The speed is present iff digit 0 is 0, the `(v & 1) != 1` test. |
| Ftms.ParseFlags | src/bluetooth.ts:168-186 | Definition of the flag record, with no contract of its own. The per-bit promise, including the inverted bit 0, is stated by `Ftms.PresentIffFlagBit`. |
| Ftms.LayoutSlots | src/bluetooth.ts:199-287 | `Layout` reads the 18 fields in transmission order, each with its encoding width (as in src/bluetooth.ts:109-129) and the flag bit that governs it. |
| Ftms.ToValues | src/bluetooth.ts:289-308 | The record's 18 fields in table order. |
| Ftms.FromValues | src/bluetooth.ts:289-308 | Inverse of `ToValues`. |
| Ftms.ConformsCons | src/bluetooth.ts:202-287 | Values fit slots `i..` iff the first fits slot `i` and the rest fit slots `i+1..`. |
| Ftms.ConformsTail | src/bluetooth.ts:202-287 | The tail of a conforming sequence conforms from the next slot. |
| Ftms.ReadFrom | src/bluetooth.ts:199-287 | The cursor walk succeeds iff the present fields fit in the buffer. Otherwise it throws a range error. On success it yields one value per slot: in range when present, 0 when absent. |
| Ftms.OffsetPlusSpan | src/bluetooth.ts:195-287 | The cursor before slot `i`, plus what slots `i..` occupy, is where it ends. |
| Ftms.ReadFromStep | src/bluetooth.ts:199-287 | A successful walk reads the first slot at the cursor, then walks the rest from the advanced cursor. |
| Ftms.ReadFromAt | src/bluetooth.ts:199-287 | Slot `i + j` is read at its closed-form offset. |
| Ftms.WalkFieldAt | src/bluetooth.ts:199-287 | Each present slot's value is the field at its offset, and each absent slot's value is 0. |
| Ftms.EncodeFrom | src/bluetooth.ts:199-287 | Encodes the present fields in order, in exactly `Span` octets. |
| Ftms.ReadEncodeFrom | src/bluetooth.ts:199-287 | Walking the encoding of conforming values yields those values, whatever surrounds it. |
| Ftms.EncodeReadFrom | src/bluetooth.ts:199-287 | The octets a successful walk covers are the encoding of the values it yields. |
| Ftms.EncodeReadStep | src/bluetooth.ts:199-287 | Re-encoding one step of a successful walk gives the octets of that slot, then the encoding of the rest. |
| Ftms.EncodeReadJoin | src/bluetooth.ts:199-287 | If the rest of a walk re-encodes to its octets, so does the walk from one slot earlier. |
| Ftms.Decode | src/bluetooth.ts:189-309 | Fewer than 2 octets throws a range error. A set "More Data" bit throws "multi-packet not supported", however short the frame. With the bit clear, decoding succeeds iff the buffer holds `FrameLength` octets. A decoded record fits its flags. |
| Ftms.DecodeIsWalk | src/bluetooth.ts:189-309 | A decoded record is the table walk from octet 2. |
| Ftms.DecodeOfWalk | src/bluetooth.ts:189-309 | Conversely, a successful walk decodes to its values. |
| Ftms.SpeedToElevationOffsets | src/bluetooth.ts:195-227 | The cursor advances 2, 2, 3, 2, 2 and 2 octets past each flagged field, from the flags to the positive elevation gain. |
| Ftms.ElevationToEnergyOffsets | src/bluetooth.ts:228-253 | The cursor advances 2, 2, 2, 2, 2 and 1 octets past each flagged field, from the negative elevation gain to the energy per minute. |
| Ftms.HeartRateToPowerOffsets | src/bluetooth.ts:258-286 | The cursor advances 1, 1, 2, 2, 2 and 2 octets past each flagged field, from the heart rate to the power output. |
| Ftms.FrameLengthFormula | src/bluetooth.ts:109-129 | Bytes consumed = 4 + 2·avgSpeed + 3·distance + 4·incl/ramp + 4·elevation + 2·instPace + 2·avgPace + 5·energy + HR + MET + 2·elapsed + 2·remaining + 4·force/power. |
| Ftms.FrameLength | src/bluetooth.ts:109-129 | Definition: the flag word plus the widths of the present fields. Its closed form is `Ftms.FrameLengthFormula`, and `Ftms.Decode` succeeds iff the buffer holds this many octets. |
| Ftms.DecodeFieldAt | src/bluetooth.ts:202-287 | Every field of a decoded record is the field read at its offset when its flag is set, and 0 when it is clear. |
| Ftms.InstantaneousSpeedField | src/bluetooth.ts:199 | The speed is always the u16 at octets 2 and 3. |
| Ftms.WalkDistance | src/bluetooth.ts:207-212 | In the walk, the total distance is the u24 just after the speeds, or 0. |
| Ftms.TotalDistanceField | src/bluetooth.ts:207-212 | The total distance is `u16(p) + octet(p+2)·65536` in [0, 2^24) when flagged, else 0. |
| Ftms.WalkInclination | src/bluetooth.ts:214-221 | In the walk, the inclination is the i16 just after the distance, or 0. |
| Ftms.InclinationField | src/bluetooth.ts:214-221 | The inclination is the two's-complement i16 just after the distance when flagged, else 0. |
| Ftms.ConformingRanges | src/bluetooth.ts:202-287 | Values that fit some flags lie in the raw ranges. |
| Ftms.FitsInRange | src/bluetooth.ts:202-287 | Each conforming value is in its slot's range. |
| Ftms.DecodedRanges | src/bluetooth.ts:202-287 | Every decoded field is unscaled and in its encoding's range. Inclination, ramp angle, force and power are signed 16-bit. Distance is u24. The rest are unsigned as transmitted. |
| Ftms.EncodeFrame | src/bluetooth.ts:109-129 | A frame for flag word `w` and record `n` has `FrameLength` octets. |
| Ftms.DecodeEncode | src/bluetooth.ts:189-309 | Decoding a frame built from a flag word without "More Data" and a conforming record gives back the record. |
| Ftms.WalkCoversFrame | src/bluetooth.ts:189-309 | The flag word plus the octets a successful walk covers are the frame's prefix. |
| Ftms.EncodeDecode | src/bluetooth.ts:189-309 | A decoded buffer's first `FrameLength` octets are exactly the frame built from its flags and record. |
| Ftms.DecodeIgnoresTrailing | src/bluetooth.ts:189-309 | Octets past the frame length never change the result. |
| Ftms.SpeedOnlyFrame | src/bluetooth.ts:199-200 | `00 00 E8 03` decodes to 1000 (10.00 km/h), with distance and inclination 0. |
| Ftms.SpeedAndDistanceFrame | src/bluetooth.ts:207-212 | `04 00 E8 03 10 27 00 FF` decodes to speed 1000 and distance 10000. The trailing octet is ignored. |
| Ftms.NegativeInclinationFrame | src/bluetooth.ts:214-219 | An inclination sent as `F6 FF` decodes to -10. |
| Ftms.ShortFrames | src/bluetooth.ts:194-211 | Buffers too short for the flags, the speed or a flagged distance throw a range error. |
| Ftms.ContinuationFrame | src/bluetooth.ts:196-198 | Frames with bit 0 set are refused before any field is read. |
| Units.Round | src/treadmill.ts:501 | `Math.round` is the integer within half of `x`. Halves round up. |
| Units.RoundMonotonic | src/treadmill.ts:501 | Rounding keeps order. |
| Units.KmphToMph | src/treadmill.ts:500-502 | Within 0.05 of `kmph·0.6213712`, to one decimal. |
| Units.MetersToMiles | src/treadmill.ts:504-506 | Within 0.005 of `m·0.000621371`, to two decimals. |
| Units.KmphToMphMonotonic | src/treadmill.ts:500-502 | A faster speed never displays slower. |
| Units.MetersToMilesMonotonic | src/treadmill.ts:504-506 | A longer distance never displays shorter. |
| Units.SampleConversions | src/treadmill.ts:500-506 | 10 km/h displays as 6.2 mph, and 1609 m as 1.00 mi. |
| Units.Digit | src/treadmill.ts:509 | A decimal digit character. |
| Units.DigitValue | src/treadmill.ts:509 | The inverse of `Digit`. |
| Units.TwoDigits | src/treadmill.ts:509 | A two-digit zero-padded field that reads back as `n`. |
| Units.FormatTime | src/treadmill.ts:508-510 | Eight characters, with colons at positions 2 and 5. |
| Units.ParseClock | src/treadmill.ts:508-510 | A clock string reads back as seconds since midnight, and only well-formed clocks read back. |
| Units.ParseFormatTime | src/treadmill.ts:508-510 | The displayed clock denotes `seconds mod 86400`, so the hours are `(s / 3600) mod 24`. |
| Units.FormatParseClock | src/treadmill.ts:508-510 | Every clock string is the display of the time it denotes. |
| Units.TwoDigitsOf | src/treadmill.ts:509 | Two digits are the padded field of the number they spell. |
| Units.SampleClocks | src/treadmill.ts:508-510 | 3725 s displays as `01:02:05`, and a full day wraps to `00:00:00`. |
| Status.FromLabel | src/treadmill.ts:64-72 | `isSupportedTrainingStatus`: it finds a status iff the label is one of the four supported labels. |
| Status.FromLabelOfLabel | src/treadmill.ts:64-72 | Every supported status is recovered from its label. |
| Status.ToTrainingStatus | src/treadmill.ts:523-534 | Succeeds iff the label is one of the four, stamped `now` and keeping the code. Otherwise it throws carrying the label. |
| Status.SampleLabels | src/treadmill.ts:523-534 | Labels match exactly: `idle` and `Warming Up` are rejected. |
| Treadmill.Backoff | src/treadmill.ts:231-232 | The delay lies between 1 s and 16 s. |
| Treadmill.AttemptReconnect | src/treadmill.ts:227-234 | Counts the attempt, announces "reconnecting" with it and arms a timer for `Backoff`. A timer the handle still named while pending becomes leaked, since the handle is overwritten without `clearTimeout`. Nothing else changes. |
| Treadmill.GiveUp | src/treadmill.ts:222-223 | Announces "disconnected" and dispatches `treadmilldisconnected`. Only the connection state changes: the handle, the attempts and `wasConnected` are kept. |
| Treadmill.OnDisconnected | src/treadmill.ts:217-225 | Enters "reconnecting" iff `wasConnected` and attempts < 5, counting one more attempt with a timer pending, and leaking the one that was still pending. Otherwise only the connection state changes, to "disconnected". |
| Treadmill.OnRetryTimer | src/treadmill.ts:234-266 | Runs only while the named timer is pending, and leaves the handle set. With no GATT server nothing else happens and the controller stays "reconnecting". A success restarts both notifications, announces "connected" with 0 attempts, then dispatches `treadmillreconnected`. A failure retries iff attempts < 5, leaking nothing, else only the connection changes, to "disconnected". |
| Treadmill.RetryCallback | src/treadmill.ts:234-266 | The callback body: nothing without GATT; on success the two notification restarts, "connected" and `treadmillreconnected`, in that order, with 0 attempts; on failure a fresh attempt while attempts < 5, else only the connection changes. `wasConnected` is never cleared. |
| Treadmill.OnLeakedTimer | src/treadmill.ts:234-266 | A leaked timer fires: one fewer is pending, and the same callback runs. A success reconnects with the exact four effects. A failure with attempts left counts attempt n+1 and emits exactly "reconnecting" with n+1 and a retry after `Backoff(n+1)`. A failure at the cap gives up, changing nothing else. The handle is untouched unless the callback arms a new timer. With none leaked nothing happens. |
| Treadmill.ClearTimer | src/treadmill.ts:204-207 | `clearTimeout` is called iff a handle is set. |
| Treadmill.OnCancelReconnect | src/treadmill.ts:269-277 | Ends "disconnected" with the named timer cleared (`clearTimeout` iff a handle is set), `wasConnected` false and 0 attempts. Leaked timers stay pending. The only effects are that `clearTimeout` and a final "disconnected" announcement, so there is no `treadmilldisconnected`. |
| Treadmill.OnDisconnect | src/treadmill.ts:203-215 | Ends "disconnected" with the named timer cleared and `wasConnected` false, the counter and any leaked timers kept. Stops both notifications iff a profile is held. Ends with the "disconnected" announcement and then `treadmilldisconnected`. The effects are only these and `clearTimeout`. |
| Treadmill.OnConnect | src/treadmill.ts:143-201 | A failed GATT connection or discovery emits exactly "connecting", "disconnected" and the matching throw. Otherwise the link is "connected" with 0 attempts. The effects are exactly: "connecting"; start telemetry notifications; the initial status event, iff the read gives a supported status; start status notifications; "connected". The supported status is stored, and a non-Idle one arms the start probe. |
| Treadmill.Clamp | src/treadmill.ts:102 | `max(0, min(speed, 12))`: in [0, 12], the identity inside, and saturating outside. |
| Treadmill.AssignTargetSpeed | src/treadmill.ts:101-104 | Stores `max(0, min(speed, 12))` and dispatches `targetspeedchanged` with it. A speed in [0, 12] is kept, a negative one saturates to 0 and one above 12 to 12. Nothing else changes. |
| Treadmill.SpeedCommand | src/treadmill.ts:414-417 | In manual mode the speed is written to the control point. Otherwise it resolves true without a write. |
| Treadmill.OnIncreaseSpeed | src/treadmill.ts:408-418 | The target becomes `Clamp(current + increment)` for every increment, where current is the last telemetry speed or else the target. The first effect announces the new target. The write, only in manual mode, sends the unclamped sum. |
| Treadmill.OnDecreaseSpeed | src/treadmill.ts:420-430 | The target becomes `Clamp(max(0.6, current - decrement))` for every decrement, so it stays in [0.6, 12]. The first effect announces the new target. Only manual mode writes, and it sends `max(0.6, current - decrement)`. |
| Treadmill.ToTreadmillData | src/treadmill.ts:512-521 | The record is stamped `now` and keeps the elapsed time and energy. Its speed is within 0.05 mph of raw/100 km/h and on the 0.1 grid. Its distance is within 0.005 mi and on the 0.01 grid. Its clock reads back as the elapsed time of day. |
| Treadmill.Telemetry | src/treadmill.ts:446 | A record exists iff the value decodes. It carries `now`, and relates to the decoded notification as `ToTreadmillData` promises: elapsed time, energy, rounded speed and distance, clock. |
| Treadmill.OnTreadmillData | src/treadmill.ts:440-452 | Idle, or a value that does not decode: nothing. Otherwise it dispatches the record, and stores it as `lastData` only in manual mode. |
| Treadmill.CurrentSpeed | src/treadmill.ts:409 | Helper, no contract: `lastData?.speed ?? targetSpeed` (also line 421). `TreadmillProps.AdjustFromTelemetry` states the telemetry case through the adjustments. |
| Treadmill.OnStartProbe | src/treadmill.ts:172-184 | The one-shot listener is consumed by the next value. When that value decodes, it sets the start to `now - elapsed·1000`. |
| Treadmill.OnTelemetry | src/treadmill.ts:161-184 | Dispatches the record iff the status is not "Idle" and the value decodes, and stores it as `lastData` only in manual mode. The one-shot listener is always consumed, and sets the start to `now - elapsed·1000` iff it was armed and the value decodes. Nothing else changes. |
| Treadmill.OnTrainingStatus | src/treadmill.ts:454-497 | An unparsable or unsupported status changes nothing. Otherwise the status is stored and dispatched. "Pre-Workout" sets the start to the status time. "Post-Workout" with no `lastData` emits no session. With `lastData` it emits duration, distance and energy from `lastData`, ended = status time, and started = the start, or `now - elapsed·1000` when unset or 0. |
| Treadmill.StartUnset | src/treadmill.ts:475 | Helper, no contract: `!sessionStarted`, true for no start time and for a start of 0. `TreadmillProps.ZeroStartDerived` shows a start of 0 is derived again. |
| TreadmillProps.ReplayAppend | src/treadmill.ts:143-497 | Proof helper about traces, with no counterpart in the source: replaying two event sequences in turn is replaying their concatenation. |
| TreadmillProps.RunAppend | src/treadmill.ts:143-497 | Proof helper about traces, with no counterpart in the source: the same, for the controller's own handlers. |
| TreadmillProps.RunCons | src/treadmill.ts:143-497 | Proof helper about traces, with no counterpart in the source: a run handles its first event, then runs the rest. |
| TreadmillProps.RunOne | src/treadmill.ts:143-497 | Proof helper about traces, with no counterpart in the source: a one-event run is its handler. |
| TreadmillProps.Pow2Grows | src/treadmill.ts:232 | Arithmetic helper for the `2 ** attempts` backoff, with no counterpart in the source: `2^a <= 2^b` for `a <= b`. |
| TreadmillProps.BackoffSchedule | src/treadmill.ts:231-232 | Attempts 1 to 5 wait 1000, 2000, 4000, 8000 and 16000 ms. |
| TreadmillProps.BackoffMonotonic | src/treadmill.ts:231-232 | Delays never shrink. |
| TreadmillProps.InitialValid | src/treadmill.ts:96-110 | A new controller satisfies the invariant. That controller is the constant `Treadmill.Initial`: disconnected, 0 of 5 attempts, no timer, status "Idle", no `lastData` or start time, target 0.6. |
| Treadmill.Step | src/treadmill.ts:143-497 | Dispatcher, no contract: routes each event to its handler. Its properties are stated by `TreadmillProps.StepValid`, `StepRetriesBounded`, `StepKeepsSessionStart` and `StepQuiet`. |
| Treadmill.Run | src/treadmill.ts:143-497 | Fold of `Step` over a trace, with no contract. Its properties are stated by `TreadmillProps.RunValid`, `RunRetriesBounded`, `RunKeepsSessionStart` and `QuietUntilConnect`. |
| TreadmillProps.StepValid | src/treadmill.ts:101-277 | Every handler keeps: attempts <= 5, at least 1 attempt while reconnecting, target in [0, 12]. |
| TreadmillProps.RunValid | src/treadmill.ts:217-264 | After any events, attempts never exceed 5 and the target lies in [0, 12]. |
| TreadmillProps.AttemptBounded | src/treadmill.ts:227-232 | A retry below the limit schedules a backoff delay and announces an attempt in 1..5. |
| TreadmillProps.ConnectRetriesBounded | src/treadmill.ts:143-201 | `connect` schedules and announces no retry. |
| TreadmillProps.TrainingStatusRetriesBounded | src/treadmill.ts:454-497 | A status notification only dispatches the status and a session. |
| TreadmillProps.RetryRetriesBounded | src/treadmill.ts:217-264 | A link drop or retry timer schedules only backoff delays and announces only attempts 1..5. |
| TreadmillProps.StepRetriesBounded | src/treadmill.ts:217-264 | The same, for any event. |
| TreadmillProps.RunRetriesBounded | src/treadmill.ts:217-264 | Over any run, every timer waits 1, 2, 4, 8 or 16 s, and no attempt past the fifth is announced. |
| TreadmillProps.StepKeepsSessionStart | src/treadmill.ts:454-492 | No handler clears a known start time. |
| TreadmillProps.RunKeepsSessionStart | src/treadmill.ts:454-492 | `sessionStarted` is never reset over any run. |
| TreadmillProps.Repeat | src/treadmill.ts:234-266 | Proof helper about traces, with no counterpart in the source: `n` copies of an event. |
| TreadmillProps.RetriesExhausted | src/treadmill.ts:217-264 | A drop plus five failures announces attempts 1..5 with delays of 1 to 16 s, then gives up. The controller still remembers being connected and keeps the count at 5. Each retry fires before the next is armed, so only a timer already pending at the drop is leaked. |
| TreadmillProps.ReplaySix | src/treadmill.ts:234-266 | Proof helper about traces, with no counterpart in the source: an event followed by five copies of another replays as six steps in turn, the effects concatenated. |
| TreadmillProps.ReplayCons | src/treadmill.ts:143-497 | Proof helper about traces, with no counterpart in the source: a non-empty trace handles its first event, then the rest from the state that leaves. |
| TreadmillProps.DropStep | src/treadmill.ts:217-225 | Proof helper equating the link-drop event with one branch of `onDisconnected`: it retries when the link had been up and attempts remain. |
| TreadmillProps.FailedRetryStep | src/treadmill.ts:234-266 | Proof helper equating a failed retry with one branch of the callback: a fresh attempt from the fired state while attempts remain, a give-up after. |
| TreadmillProps.NoRetryAfterExhaustion | src/treadmill.ts:217-225 | With 5 attempts counted, a drop gives up at once. |
| TreadmillProps.StuckAfterNoGatt | src/treadmill.ts:234-236 | After a GATT-less callback the controller stays "reconnecting" with no retry, whatever firings of the named timer follow. |
| TreadmillProps.StepQuiet | src/treadmill.ts:203-277 | A forgotten link stays forgotten through any non-connect event. |
| TreadmillProps.DropQuiet | src/treadmill.ts:217-225 | A drop of a forgotten link only gives up: no retry, no state but "disconnected". |
| TreadmillProps.CancelQuiet | src/treadmill.ts:269-277 | With no leaked timer, `cancelReconnect` leaves the link forgotten (disconnected, not `wasConnected`, no timer pending) and revives nothing. |
| TreadmillProps.DisconnectQuiet | src/treadmill.ts:203-215 | With no leaked timer, `disconnect` leaves the link forgotten and revives nothing. |
| TreadmillProps.SpeedEventsQuiet | src/treadmill.ts:408-430 | Speed changes leave a forgotten link forgotten and revive nothing. |
| TreadmillProps.DataEventsQuiet | src/treadmill.ts:440-497 | Telemetry and status notifications leave a forgotten link forgotten and revive nothing. |
| TreadmillProps.QuietUntilConnect | src/treadmill.ts:203-277 | The same over whole runs, with no revival effect. |
| TreadmillProps.NoRevivalAfterCancel | src/treadmill.ts:203-215 | After `cancelReconnect` or `disconnect`, when no leaked timer is pending, nothing short of `connect` reconnects, schedules a retry or leaves "disconnected". |
| TreadmillProps.LeakedTimerRevives | src/treadmill.ts:227-234 | From any controller with no timer pending, after connect, drop, failed retry, drop and `cancelReconnect`, the controller is "disconnected" with no handle, yet one more timer is leaked. That timer still fires, and can reconnect and dispatch `treadmillreconnected`. |
| TreadmillProps.DropDuringRetryRun | src/treadmill.ts:217-273 | Proof helper: that five-event run is its five handlers in turn. |
| TreadmillProps.LeakedReconnect | src/treadmill.ts:234-255 | Proof helper: while a leaked timer remains, a successful callback from it reconnects and dispatches `treadmillreconnected`. |
| TreadmillProps.LeakTrace | src/treadmill.ts:217-273 | Proof helper: the states of that trace, with the second drop leaking the pending timer and the cancel keeping it. |
| TreadmillProps.ReplayFive | src/treadmill.ts:143-497 | Proof helper about traces, with no counterpart in the source: five events replay as five steps in turn. |
| TreadmillProps.CancelStep | src/treadmill.ts:269-277 | Proof helper: the cancel event runs `cancelReconnect`. |
| TreadmillProps.UnclampedIncrease | src/treadmill.ts:408-418 | Past 12 mph in manual mode the target is 12, but the write sends the unclamped sum. |
| TreadmillProps.AdjustFromTelemetry | src/treadmill.ts:409 | Adjustments start from the last telemetry speed, not the stored target. |
| TreadmillProps.NoWriteOutsideManualMode | src/treadmill.ts:414-429 | Outside manual mode no adjustment writes. |
| TreadmillProps.StaleStartReused | src/treadmill.ts:454-492 | Two "Post-Workout" statuses in a row report the same start (one that is not 0). |
| TreadmillProps.ZeroStartDerived | src/treadmill.ts:475-477 | A start of 0 counts as unset and is re-derived as `now - elapsed·1000`. |
| TreadmillProps.IdleTelemetryIgnored | src/treadmill.ts:442-446 | While "Idle" with no probe armed, telemetry changes nothing and emits nothing. |
| TreadmillProps.ProbeSetsStart | src/treadmill.ts:172-184 | Connecting mid-workout makes the next decodable telemetry set the start from its elapsed time. |

## Left out

- Web Bluetooth I/O is left out. This covers `connect`, `discover`, `getDevice`, `detect`, the `disconnect` helper, reading the status characteristic and `readFeature`. Each outcome is an input: `ConnectOutcome` for `connect`, `RetryOutcome` for the timer callback, and `Option<RawStatus>` for the status read.
- The `disconnect` helper at src/bluetooth.ts:50 names `d.gatt.disconnect` without calling it, so the link is never actually dropped. The helper is outside this model. `Treadmill.OnDisconnect` models only the controller's own bookkeeping.
- `parseTrainingStatusNotification` and the control-point command builders are not part of this model. Their source is not available. The parser's output is an input, and `None` means it threw.
- `averageSpeed` is a database range query with floating-point averaging. It is the parameter `avg`, a total function, so a failing query (which the handler's `catch` would swallow) is not modelled.
- `setTimeout`, `clearTimeout`, `Date.now()` and `dispatchEvent` are modelled as follows:
  - the timers are the `RetryTimer` state of the named timer and the count of leaked ones, plus
  - the clock is the `now` input, and two clock reads within one handler are taken to be equal;
  - dispatched events are outputs, in order.
- Asynchronous interleaving is not modelled. Each handler, including the reconnect callback and the `await averageSpeed` in the status handler, runs as one atomic step. A retry that is already in flight when `cancelReconnect` runs, and so could still reconnect afterwards, is therefore not represented.
- Listeners added more than once are not modelled. Each reconnect (src/treadmill.ts:241, 247) registers further telemetry and status listeners, and each `connect` adds a `gattserverdisconnected` listener (src/treadmill.ts:145 and src/bluetooth.ts:43). The model keeps one of each: `LinkDropped` stands for one `onDisconnected` call, and `startProbe` is one flag. Several pending timers are modelled, through the leaked count.
- Floating-point rounding is not modelled. Conversions use exact reals, with `Math.round` as `floor(x + 0.5)`. This affects `Units.KmphToMph`, `Units.MetersToMiles` and the target speed.
- The mph-to-km/h conversion in `setSpeed`, the control-point write itself and its result are left out. `WriteSetSpeed` carries the mph value passed to `setSpeed`.
- `start`, `stop`, `reset`, `readFeature`, the indication logging and the console diagnostics are left out. They are asynchronous writes and logging.
- The default increments of 0.1 for `increaseSpeed` and `decreaseSpeed` are not modelled: the amount is always passed explicitly.
- `Units.FormatTime` requires a time before the year 10000. From there on `toISOString` writes a six-digit year, and characters 11 to 19 are no longer the clock. Elapsed times are u16, far below this bound.
- `Ftms.Decode` keeps both speeds in raw hundredths of a km/h. The division by 100 moves to `Treadmill.ToTreadmillData`, which is the only user of the speed.
- The elevation gains are read as unsigned 16-bit values, as the code does at src/bluetooth.ts:226-228. The field-length comments at src/bluetooth.ts:116-117 call them sint16.
- The stored target speed is clamped to [0, 12], as the code does. A lower bound of 0.6 exists only for `decreaseSpeed`.
- `TreadmillProps.StaleStartReused`: this lemma requires the start reported first to be nonzero. A start of exactly 0 would count as unset and be derived again.
- `TreadmillProps.NoRevivalAfterCancel`: requires that no leaked timer is pending. Without that, a timer overwritten by a drop during a pending retry survives the cancel and can reconnect, as `TreadmillProps.LeakedTimerRevives` shows.
- The UI (src/index.ts) and persistence (src/storage.ts, src/storage-worker.ts) are outside the core and are not modelled.

=== FILE: ftms.dfy ===
/**
 * Decoder for the Treadmill Data characteristic of the Fitness Machine
 * Service (section 3.234 of the Bluetooth GATT Specification Supplement).
 *
 * A notification starts with a 16-bit little-endian flag word. The fields
 * follow in a fixed order; each optional group is present only when its flag
 * bit is set, and a cursor advances past a field only when it is present.
 * Bit 0 is the "More Data" bit: when it is clear the instantaneous speed is
 * present, when it is set the frame is a continuation, which is not supported.
 *
 * The decoder is table-driven: `Layout` lists every field with its encoding and
 * the flag bit that governs it, and `ReadFrom` walks it with the cursor.
 * Speeds stay raw, in hundredths of a km/h; no other field is scaled either.
 */
module Ftms {
  import opened Wrappers
  import opened Wire

  /** The meaning of each flag bit the decoder looks at (bits 13-15 are ignored). */
  datatype Flags = Flags(
    instantaneousSpeed: bool,  // false means "More Data": a continuation frame
    averageSpeed: bool,
    totalDistance: bool,
    inclinationAndRampAngle: bool,
    elevationGain: bool,
    instantaneousPace: bool,
    averagePace: bool,
    expendedEnergy: bool,
    heartRate: bool,
    metabolicEquivalent: bool,
    elapsedTime: bool,
    remainingTime: bool,
    forceOnBeltAndPowerOutput: bool)

  /** Every field of a decoded notification; an absent field reads as 0. */
  datatype Notification = Notification(
    instantaneousSpeed: int,     // 1/100 km/h
    averageSpeed: int,           // 1/100 km/h
    totalDistance: int,          // m
    inclination: int,            // 1/10 %
    rampAngleSetting: int,       // 1/10 degree
    positiveElevationGain: int,  // 1/10 m
    negativeElevationGain: int,  // 1/10 m
    instantaneousPace: int,
    averagePace: int,
    totalEnergy: int,            // kcal
    energyPerHour: int,
    energyPerMinute: int,
    heartRate: int,              // bpm
    metabolicEquivalent: int,
    elapsedTime: int,            // s
    remainingTime: int,          // s
    forceOnBelt: int,            // N
    powerOutput: int)            // W

  /** Bit `k` of a non-negative word, i.e. `(w & (1 << k)) != 0`. */
  predicate BitSet(w: nat, k: nat) {
    if k == 0 then w % 2 == 1 else BitSet(w / 2, k - 1)
  }

  /** A positive multiple of `d` is at least `d`. */
  lemma {:induction false} MultipleAtLeast(e: nat, d: nat)
    requires e >= 1
    ensures e * d >= d
  {
    if e > 1 {
      MultipleAtLeast(e - 1, d);
      assert e * d == (e - 1) * d + d;
    }
  }

  /** The quotient is the only `a` with `w == a * d + r` and `0 <= r < d`. */
  lemma QuotientUnique(w: nat, d: nat, a: nat, r: nat)
    requires 0 <= r < d && w == a * d + r
    ensures w / d == a
  {
    var a', r' := w / d, w % d;
    assert w == a' * d + r';
    if a' < a {
      var e := a - a';
      assert a * d == a' * d + e * d;
      MultipleAtLeast(e, d);
    } else if a' > a {
      var e := a' - a;
      assert a' * d == a * d + e * d;
      MultipleAtLeast(e, d);
    }
  }

  /** Halving and then dividing by `2^k` is dividing by `2^(k + 1)`. */
  lemma HalveThenDivide(w: nat, k: nat)
    ensures w / 2 / Pow2(k) == w / Pow2(k + 1)
  {
    var p := Pow2(k);
    var q, r := w / 2, w % 2;
    var a, b := q / p, q % p;
    assert w == 2 * q + r;
    assert q == a * p + b;
    assert 2 * (a * p) == a * (2 * p);
    QuotientUnique(w, 2 * p, a, 2 * b + r);
  }

  /** `BitSet` is the `k`-th binary digit of `w`, the value `(w >> k) & 1` the mask test reads. */
  lemma {:induction false} BitSetDigit(w: nat, k: nat)
    ensures BitSet(w, k) <==> w / Pow2(k) % 2 == 1
  {
    if k > 0 {
      BitSetDigit(w / 2, k - 1);
      HalveThenDivide(w, k - 1);
    }
  }

  /** The flag word: the little-endian u16 at offset 0. */
  function FlagWord(v: seq<Byte>): (w: nat)
    requires |v| >= 2
    ensures w < 0x1_0000
  {
    v[0] as int + v[1] as int * 0x100
  }

  /** `parseTreadmillNotificationFlags`. Bit 0 is tested as `(w & 1) != 1`. */
  function ParseFlags(w: nat): Flags {
    Flags(
      instantaneousSpeed := w % 2 != 1,
      averageSpeed := BitSet(w, 1),
      totalDistance := BitSet(w, 2),
      inclinationAndRampAngle := BitSet(w, 3),
      elevationGain := BitSet(w, 4),
      instantaneousPace := BitSet(w, 5),
      averagePace := BitSet(w, 6),
      expendedEnergy := BitSet(w, 7),
      heartRate := BitSet(w, 8),
      metabolicEquivalent := BitSet(w, 9),
      elapsedTime := BitSet(w, 10),
      remainingTime := BitSet(w, 11),
      forceOnBeltAndPowerOutput := BitSet(w, 12))
  }

  /** Whether the field group governed by flag bit `bit` is in the frame. */
  predicate Present(f: Flags, bit: nat) {
    match bit
    case 0 => f.instantaneousSpeed
    case 1 => f.averageSpeed
    case 2 => f.totalDistance
    case 3 => f.inclinationAndRampAngle
    case 4 => f.elevationGain
    case 5 => f.instantaneousPace
    case 6 => f.averagePace
    case 7 => f.expendedEnergy
    case 8 => f.heartRate
    case 9 => f.metabolicEquivalent
    case 10 => f.elapsedTime
    case 11 => f.remainingTime
    case 12 => f.forceOnBeltAndPowerOutput
    case _ => false
  }

  /**
   * Field group `k`, for `k` from 1 to 12, is in the frame exactly when binary
   * digit `k` of the flag word is 1; the speed is there exactly when digit 0 is 0.
   */
  lemma PresentIffFlagBit(w: nat, k: nat)
    requires k <= 12
    ensures k == 0 ==> (Present(ParseFlags(w), k) <==> w % 2 == 0)
    ensures k >= 1 ==> (Present(ParseFlags(w), k) <==> w / Pow2(k) % 2 == 1)
  {
    BitSetDigit(w, k);
  }

  /** One field of the frame: its encoding and the flag bit that governs it. */
  datatype Slot = Slot(kind: FieldKind, bit: nat)

  /** Every field after the flag word, in transmission order. */
  const Layout: seq<Slot> := [
    Slot(U16, 0),   // instantaneous speed
    Slot(U16, 1),   // average speed
    Slot(U24, 2),   // total distance
    Slot(I16, 3),   // inclination
    Slot(I16, 3),   // ramp angle setting
    Slot(U16, 4),   // positive elevation gain
    Slot(U16, 4),   // negative elevation gain
    Slot(U16, 5),   // instantaneous pace
    Slot(U16, 6),   // average pace
    Slot(U16, 7),   // total energy
    Slot(U16, 7),   // energy per hour
    Slot(U8, 7),    // energy per minute
    Slot(U8, 8),    // heart rate
    Slot(U8, 9),    // metabolic equivalent
    Slot(U16, 10),  // elapsed time
    Slot(U16, 11),  // remaining time
    Slot(I16, 12),  // force on belt
    Slot(I16, 12)   // power output
  ]

  /** The encoding and governing flag bit of every slot of `Layout`. */
  lemma LayoutSlots()
    ensures Layout[0] == Slot(U16, 0) && Layout[1] == Slot(U16, 1) && Layout[2] == Slot(U24, 2)
    ensures Layout[3] == Slot(I16, 3) && Layout[4] == Slot(I16, 3) && Layout[5] == Slot(U16, 4)
    ensures Layout[6] == Slot(U16, 4) && Layout[7] == Slot(U16, 5) && Layout[8] == Slot(U16, 6)
    ensures Layout[9] == Slot(U16, 7) && Layout[10] == Slot(U16, 7) && Layout[11] == Slot(U8, 7)
    ensures Layout[12] == Slot(U8, 8) && Layout[13] == Slot(U8, 9) && Layout[14] == Slot(U16, 10)
    ensures Layout[15] == Slot(U16, 11) && Layout[16] == Slot(I16, 12) && Layout[17] == Slot(I16, 12)
  {
  }

  /** The fields of a notification in `Layout` order. */
  function ToValues(n: Notification): (s: seq<int>)
    ensures |s| == |Layout|
  {
    [n.instantaneousSpeed, n.averageSpeed, n.totalDistance, n.inclination,
     n.rampAngleSetting, n.positiveElevationGain, n.negativeElevationGain,
     n.instantaneousPace, n.averagePace, n.totalEnergy, n.energyPerHour,
     n.energyPerMinute, n.heartRate, n.metabolicEquivalent, n.elapsedTime,
     n.remainingTime, n.forceOnBelt, n.powerOutput]
  }

  /** The notification whose fields, in `Layout` order, are `s`. */
  function FromValues(s: seq<int>): (n: Notification)
    requires |s| == |Layout|
    ensures ToValues(n) == s
  {
    Notification(s[0], s[1], s[2], s[3], s[4], s[5], s[6], s[7], s[8], s[9],
                 s[10], s[11], s[12], s[13], s[14], s[15], s[16], s[17])
  }


  // ----- The cursor walk over a field table -----
  // The walk is stated for any table `L`; `Decode` runs it over `Layout`.

  /** How far the cursor moves past slot `i` of `L`: its width if present, else nothing. */
  function Advance(f: Flags, L: seq<Slot>, i: nat): nat
    requires i < |L|
  {
    if Present(f, L[i].bit) then Width(L[i].kind) else 0
  }

  /** Where the cursor stands before slot `i`: past the flag word and every present earlier slot. */
  function Offset(f: Flags, L: seq<Slot>, i: nat): nat
    requires i <= |L|
  {
    if i == 0 then 2 else Offset(f, L, i - 1) + Advance(f, L, i - 1)
  }

  /** Octets slots `i..` of `L` occupy. */
  function Span(f: Flags, L: seq<Slot>, i: nat): nat
    requires i <= |L|
    decreases |L| - i
  {
    if i == |L| then 0 else Advance(f, L, i) + Span(f, L, i + 1)
  }

  /** Value `x` fits slot `s` under `f`: within the encoding's range when present, 0 when absent. */
  predicate Fits(f: Flags, s: Slot, x: int) {
    if Present(f, s.bit) then InRange(s.kind, x) else x == 0
  }

  /** `vals` fit slots `i..` of `L` one by one. */
  predicate ConformsFrom(f: Flags, L: seq<Slot>, i: nat, vals: seq<int>)
    requires i <= |L| && |vals| == |L| - i
  {
    forall j :: 0 <= j < |vals| ==> Fits(f, L[i + j], vals[j])
  }

  lemma ConformsCons(f: Flags, L: seq<Slot>, i: nat, x: int, rest: seq<int>)
    requires i < |L| && |rest| == |L| - i - 1
    requires Fits(f, L[i], x) && ConformsFrom(f, L, i + 1, rest)
    ensures ConformsFrom(f, L, i, [x] + rest)
  {
    forall j | 0 <= j < |rest| + 1
      ensures Fits(f, L[i + j], ([x] + rest)[j])
    {
      if j > 0 {
        assert ([x] + rest)[j] == rest[j - 1];
      }
    }
  }

  lemma ConformsTail(f: Flags, L: seq<Slot>, i: nat, vals: seq<int>)
    requires i < |L| && |vals| == |L| - i && ConformsFrom(f, L, i, vals)
    ensures Fits(f, L[i], vals[0]) && ConformsFrom(f, L, i + 1, vals[1..])
  {
    assert Fits(f, L[i + 0], vals[0]);
    forall j | 0 <= j < |vals| - 1
      ensures Fits(f, L[i + 1 + j], vals[1..][j])
    {
      assert vals[1..][j] == vals[j + 1];
    }
  }

  /**
   * The cursor walk over slots `i..` of `L`: reads each present slot at `pos`
   * and advances past it, records 0 for each absent slot. A read past the end
   * of the buffer throws.
   */
  function ReadFrom(v: seq<Byte>, f: Flags, L: seq<Slot>, i: nat, pos: nat): (r: Result<seq<int>, DecodeError>)
    requires i <= |L|
    ensures r.Success? <==> Span(f, L, i) == 0 || pos + Span(f, L, i) <= |v|
    ensures r.Failure? ==> r.error == OutOfBounds
    ensures r.Success? ==> |r.value| == |L| - i && ConformsFrom(f, L, i, r.value)
    decreases |L| - i
  {
    if i == |L| then Success([])
    else if !Present(f, L[i].bit) then
      var rest :- ReadFrom(v, f, L, i + 1, pos);
      ConformsCons(f, L, i, 0, rest);
      Success([0] + rest)
    else
      var x :- Get(v, L[i].kind, pos);
      var rest :- ReadFrom(v, f, L, i + 1, pos + Width(L[i].kind));
      ConformsCons(f, L, i, x, rest);
      Success([x] + rest)
  }

  /** Each slot's offset plus the span of the slots from it on is where the cursor ends. */
  lemma {:induction false} OffsetPlusSpan(f: Flags, L: seq<Slot>, i: nat)
    requires i <= |L|
    ensures Offset(f, L, i) + Span(f, L, i) == Offset(f, L, |L|)
    decreases |L| - i
  {
    if i < |L| {
      OffsetPlusSpan(f, L, i + 1);
    }
  }

  /** One step of a successful walk: the slot's value, then the walk from the next offset. */
  lemma ReadFromStep(v: seq<Byte>, f: Flags, L: seq<Slot>, i: nat, pos: nat)
    requires i < |L|
    requires ReadFrom(v, f, L, i, pos).Success?
    ensures ReadFrom(v, f, L, i + 1, pos + Advance(f, L, i)).Success?
    ensures Present(f, L[i].bit) ==> Get(v, L[i].kind, pos).Success?
    ensures ReadFrom(v, f, L, i, pos).value ==
            [if Present(f, L[i].bit) then Get(v, L[i].kind, pos).value else 0]
            + ReadFrom(v, f, L, i + 1, pos + Advance(f, L, i)).value
  {
  }

  /** Slot `j` of a walk that starts at slot `i`'s offset was read at slot `j`'s offset. */
  lemma {:induction false} ReadFromAt(v: seq<Byte>, f: Flags, L: seq<Slot>, i: nat, j: nat)
    requires i <= j < |L|
    requires ReadFrom(v, f, L, i, Offset(f, L, i)).Success?
    ensures Present(f, L[j].bit) ==>
              Get(v, L[j].kind, Offset(f, L, j)) == Success(ReadFrom(v, f, L, i, Offset(f, L, i)).value[j - i])
    decreases j - i
  {
    var pos := Offset(f, L, i);
    var vals := ReadFrom(v, f, L, i, pos).value;
    assert Offset(f, L, i + 1) == pos + Advance(f, L, i);
    ReadFromStep(v, f, L, i, pos);
    var head := if Present(f, L[i].bit) then Get(v, L[i].kind, pos).value else 0;
    var rest := ReadFrom(v, f, L, i + 1, Offset(f, L, i + 1)).value;
    assert vals == [head] + rest;
    if j > i {
      ReadFromAt(v, f, L, i + 1, j);
      IndexPastHead(head, rest, j - i);
    } else if Present(f, L[j].bit) {
      assert vals[0] == head;
    }
  }

  /** Past its first element, a sequence with a head prepended is the original, shifted by one. */
  lemma IndexPastHead(x: int, s: seq<int>, k: nat)
    requires 1 <= k <= |s|
    ensures ([x] + s)[k] == s[k - 1]
  {
  }

  /** Slot `i` of a walk from octet 2 was read at its offset when present, and is 0 when absent. */
  lemma WalkFieldAt(v: seq<Byte>, f: Flags, L: seq<Slot>, i: nat)
    requires ReadFrom(v, f, L, 0, 2).Success?
    requires i < |L|
    ensures if Present(f, L[i].bit)
            then Get(v, L[i].kind, Offset(f, L, i)) == Success(ReadFrom(v, f, L, 0, 2).value[i])
            else ReadFrom(v, f, L, 0, 2).value[i] == 0
  {
    ReadFromAt(v, f, L, 0, i);
    assert Fits(f, L[0 + i], ReadFrom(v, f, L, 0, 2).value[i]);
  }

  // ----- The peripheral's side: building a frame -----

  /** The octets of the present slots `i..` of `L`, in order. */
  function EncodeFrom(f: Flags, L: seq<Slot>, i: nat, vals: seq<int>): (r: seq<Byte>)
    requires i <= |L| && |vals| == |L| - i && ConformsFrom(f, L, i, vals)
    ensures |r| == Span(f, L, i)
    decreases |L| - i
  {
    if i == |L| then []
    else
      ConformsTail(f, L, i, vals);
      (if Present(f, L[i].bit) then Encode(L[i].kind, vals[0]) else [])
      + EncodeFrom(f, L, i + 1, vals[1..])
  }

  /** Walking encoded slots yields the values they were built from. */
  lemma {:induction false} ReadEncodeFrom(pre: seq<Byte>, f: Flags, L: seq<Slot>, i: nat, vals: seq<int>, post: seq<Byte>)
    requires i <= |L| && |vals| == |L| - i && ConformsFrom(f, L, i, vals)
    ensures ReadFrom(pre + EncodeFrom(f, L, i, vals) + post, f, L, i, |pre|) == Success(vals)
    decreases |L| - i
  {
    if i < |L| {
      ConformsTail(f, L, i, vals);
      var e := if Present(f, L[i].bit) then Encode(L[i].kind, vals[0]) else [];
      var tail := EncodeFrom(f, L, i + 1, vals[1..]);
      var buf := pre + EncodeFrom(f, L, i, vals) + post;
      assert buf == (pre + e) + tail + post;
      ReadEncodeFrom(pre + e, f, L, i + 1, vals[1..], post);
      if Present(f, L[i].bit) {
        assert buf == pre + e + (tail + post);
        GetEncode(pre, L[i].kind, vals[0], tail + post);
      }
      ReadFromStep(buf, f, L, i, |pre|);
      assert [vals[0]] + vals[1..] == vals;
    }
  }

  /** One step of a successful walk, re-encoded: the octets of slot `i`, then the encoding of the rest. */
  lemma EncodeReadStep(v: seq<Byte>, f: Flags, L: seq<Slot>, i: nat, pos: nat)
    requires i < |L| && pos <= |v|
    requires ReadFrom(v, f, L, i, pos).Success?
    ensures var w := Advance(f, L, i);
            && pos + w <= |v| && ReadFrom(v, f, L, i + 1, pos + w).Success?
            && EncodeFrom(f, L, i, ReadFrom(v, f, L, i, pos).value)
               == v[pos..pos + w] + EncodeFrom(f, L, i + 1, ReadFrom(v, f, L, i + 1, pos + w).value)
  {
    var vals := ReadFrom(v, f, L, i, pos).value;
    var w := Advance(f, L, i);
    ReadFromStep(v, f, L, i, pos);
    assert vals[1..] == ReadFrom(v, f, L, i + 1, pos + w).value;
    ConformsTail(f, L, i, vals);
    if Present(f, L[i].bit) {
      EncodeGet(v, L[i].kind, pos);
    }
  }

  /** The octets a successful walk covers are the encoding of the values it read. */
  lemma {:induction false} EncodeReadFrom(v: seq<Byte>, f: Flags, L: seq<Slot>, i: nat, pos: nat)
    requires i <= |L| && pos <= |v|
    requires ReadFrom(v, f, L, i, pos).Success?
    ensures pos + Span(f, L, i) <= |v|
    ensures EncodeFrom(f, L, i, ReadFrom(v, f, L, i, pos).value) == v[pos..pos + Span(f, L, i)]
    decreases |L| - i
  {
    if i < |L| {
      var w := Advance(f, L, i);
      EncodeReadStep(v, f, L, i, pos);
      EncodeReadFrom(v, f, L, i + 1, pos + w);
      EncodeReadJoin(v, f, L, i, pos);
    }
  }

  /** The encoding of slot `i`'s octets followed by the encoding of the slots after it is the whole slice. */
  lemma EncodeReadJoin(v: seq<Byte>, f: Flags, L: seq<Slot>, i: nat, pos: nat)
    requires i < |L| && pos <= |v|
    requires ReadFrom(v, f, L, i, pos).Success?
    requires var mid := pos + Advance(f, L, i);
             && mid + Span(f, L, i + 1) <= |v| && ReadFrom(v, f, L, i + 1, mid).Success?
             && EncodeFrom(f, L, i + 1, ReadFrom(v, f, L, i + 1, mid).value) == v[mid..mid + Span(f, L, i + 1)]
    ensures pos + Span(f, L, i) <= |v|
    ensures EncodeFrom(f, L, i, ReadFrom(v, f, L, i, pos).value) == v[pos..pos + Span(f, L, i)]
  {
    var mid, end := pos + Advance(f, L, i), pos + Span(f, L, i);
    assert mid + Span(f, L, i + 1) == end;
    var whole := EncodeFrom(f, L, i, ReadFrom(v, f, L, i, pos).value);
    var tail := EncodeFrom(f, L, i + 1, ReadFrom(v, f, L, i + 1, mid).value);
    EncodeReadStep(v, f, L, i, pos);
    assert whole == v[pos..mid] + tail;
    assert tail == v[mid..end];
    AdjacentSlices(v, pos, mid, end);
  }

  /** Two adjacent slices of a sequence make up the slice that spans both. */
  lemma AdjacentSlices<T>(v: seq<T>, a: nat, b: nat, c: nat)
    requires a <= b <= c <= |v|
    ensures v[a..b] + v[b..c] == v[a..c]
  {
  }

  // ----- The treadmill data frame -----

  /** Octets a frame with these flags occupies: where the cursor ends after `Layout`. */
  function FrameLength(f: Flags): nat {
    Offset(f, Layout, |Layout|)
  }

  /** Field values that fit the frame's flags, in `Layout` order. */
  predicate Conforms(f: Flags, vals: seq<int>)
    requires |vals| == |Layout|
  {
    ConformsFrom(f, Layout, 0, vals)
  }

  /** `parseTreadmillNotification`. */
  function Decode(v: seq<Byte>): (r: Result<Notification, DecodeError>)
    ensures |v| < 2 ==> r == Failure(OutOfBounds)
    ensures |v| >= 2 && BitSet(FlagWord(v), 0) ==> r == Failure(MultiPacketNotSupported)
    ensures |v| >= 2 && !BitSet(FlagWord(v), 0) ==>
              (r.Success? <==> |v| >= FrameLength(ParseFlags(FlagWord(v))))
    ensures r.Failure? && r.error == MultiPacketNotSupported ==> |v| >= 2 && BitSet(FlagWord(v), 0)
    ensures r.Success? ==> Conforms(ParseFlags(FlagWord(v)), ToValues(r.value))
  {
    // getUint16(0, true) throws on a buffer shorter than the flag word
    if |v| < 2 then Failure(OutOfBounds)
    else
      var flags := ParseFlags(FlagWord(v));
      if !flags.instantaneousSpeed then Failure(MultiPacketNotSupported)
      else
        assert Span(flags, Layout, 0) > 0 && FrameLength(flags) == 2 + Span(flags, Layout, 0) by {
          OffsetPlusSpan(flags, Layout, 0);
        }
        var values :- ReadFrom(v, flags, Layout, 0, 2);
        Success(FromValues(values))
  }

  /** A successful decode is the walk of `Layout` from octet 2 under the frame's flags. */
  lemma DecodeIsWalk(v: seq<Byte>)
    requires Decode(v).Success?
    ensures |v| >= 2 && ParseFlags(FlagWord(v)).instantaneousSpeed
    ensures ReadFrom(v, ParseFlags(FlagWord(v)), Layout, 0, 2).Success?
    ensures ToValues(Decode(v).value) == ReadFrom(v, ParseFlags(FlagWord(v)), Layout, 0, 2).value
  {
  }

  /** Conversely, a continuing frame whose walk succeeds decodes to the values walked. */
  lemma DecodeOfWalk(v: seq<Byte>, vals: seq<int>)
    requires |v| >= 2 && !BitSet(FlagWord(v), 0)
    requires ReadFrom(v, ParseFlags(FlagWord(v)), Layout, 0, 2) == Success(vals)
    ensures Decode(v) == Success(FromValues(vals))
  {
  }

  function Count(b: bool): nat {
    if b then 1 else 0
  }

  /** The cursor moves past the speeds, distance, inclination, ramp angle and positive elevation gain only when flagged. */
  lemma SpeedToElevationOffsets(f: Flags)
    ensures Offset(f, Layout, 0) == 2
    ensures Offset(f, Layout, 1) == Offset(f, Layout, 0) + 2 * Count(f.instantaneousSpeed)
    ensures Offset(f, Layout, 2) == Offset(f, Layout, 1) + 2 * Count(f.averageSpeed)
    ensures Offset(f, Layout, 3) == Offset(f, Layout, 2) + 3 * Count(f.totalDistance)
    ensures Offset(f, Layout, 4) == Offset(f, Layout, 3) + 2 * Count(f.inclinationAndRampAngle)
    ensures Offset(f, Layout, 5) == Offset(f, Layout, 4) + 2 * Count(f.inclinationAndRampAngle)
    ensures Offset(f, Layout, 6) == Offset(f, Layout, 5) + 2 * Count(f.elevationGain)
  {
  }

  /** ... then past the negative elevation gain, paces and energy fields only when flagged. */
  lemma ElevationToEnergyOffsets(f: Flags)
    ensures Offset(f, Layout, 7) == Offset(f, Layout, 6) + 2 * Count(f.elevationGain)
    ensures Offset(f, Layout, 8) == Offset(f, Layout, 7) + 2 * Count(f.instantaneousPace)
    ensures Offset(f, Layout, 9) == Offset(f, Layout, 8) + 2 * Count(f.averagePace)
    ensures Offset(f, Layout, 10) == Offset(f, Layout, 9) + 2 * Count(f.expendedEnergy)
    ensures Offset(f, Layout, 11) == Offset(f, Layout, 10) + 2 * Count(f.expendedEnergy)
    ensures Offset(f, Layout, 12) == Offset(f, Layout, 11) + 1 * Count(f.expendedEnergy)
  {
  }

  /** ... then past heart rate, MET, the two times, force and power only when flagged. */
  lemma HeartRateToPowerOffsets(f: Flags)
    ensures Offset(f, Layout, 13) == Offset(f, Layout, 12) + 1 * Count(f.heartRate)
    ensures Offset(f, Layout, 14) == Offset(f, Layout, 13) + 1 * Count(f.metabolicEquivalent)
    ensures Offset(f, Layout, 15) == Offset(f, Layout, 14) + 2 * Count(f.elapsedTime)
    ensures Offset(f, Layout, 16) == Offset(f, Layout, 15) + 2 * Count(f.remainingTime)
    ensures Offset(f, Layout, 17) == Offset(f, Layout, 16) + 2 * Count(f.forceOnBeltAndPowerOutput)
    ensures Offset(f, Layout, 18) == Offset(f, Layout, 17) + 2 * Count(f.forceOnBeltAndPowerOutput)
  {
  }

  /**
   * Octets a continuing frame occupies: flags and speed, then 2, 3, 4, 4, 2, 2,
   * 5, 1, 1, 2, 2 and 4 for each present group in table order.
   */
  lemma FrameLengthFormula(f: Flags)
    requires f.instantaneousSpeed
    ensures FrameLength(f) ==
            4 + 2 * Count(f.averageSpeed) + 3 * Count(f.totalDistance)
            + 4 * Count(f.inclinationAndRampAngle) + 4 * Count(f.elevationGain)
            + 2 * Count(f.instantaneousPace) + 2 * Count(f.averagePace)
            + 5 * Count(f.expendedEnergy) + Count(f.heartRate)
            + Count(f.metabolicEquivalent) + 2 * Count(f.elapsedTime)
            + 2 * Count(f.remainingTime) + 4 * Count(f.forceOnBeltAndPowerOutput)
  {
    SpeedToElevationOffsets(f);
    ElevationToEnergyOffsets(f);
    HeartRateToPowerOffsets(f);
  }

  /** Slot `i` of a decoded frame was read at its offset when present, and is 0 when absent. */
  lemma DecodeFieldAt(v: seq<Byte>, i: nat)
    requires Decode(v).Success?
    requires i < |Layout|
    ensures var f := ParseFlags(FlagWord(v));
            if Present(f, Layout[i].bit)
            then Get(v, Layout[i].kind, Offset(f, Layout, i)) == Success(ToValues(Decode(v).value)[i])
            else ToValues(Decode(v).value)[i] == 0
  {
    DecodeIsWalk(v);
    WalkFieldAt(v, ParseFlags(FlagWord(v)), Layout, i);
  }

  /** The instantaneous speed is always read, as the u16 at octets 2 and 3. */
  lemma InstantaneousSpeedField(v: seq<Byte>)
    requires Decode(v).Success?
    ensures |v| >= 4 && Decode(v).value.instantaneousSpeed == v[2] as int + v[3] as int * 0x100
  {
    DecodeFieldAt(v, 0);
  }

  lemma WalkDistance(v: seq<Byte>, f: Flags)
    requires f.instantaneousSpeed
    requires ReadFrom(v, f, Layout, 0, 2).Success?
    ensures var p := 4 + 2 * Count(f.averageSpeed);
            var d := ReadFrom(v, f, Layout, 0, 2).value[2];
            && 0 <= d < 0x100_0000
            && (f.totalDistance ==> p + 3 <= |v| && d == v[p] as int + v[p + 1] as int * 0x100 + v[p + 2] as int * 0x1_0000)
            && (!f.totalDistance ==> d == 0)
  {
    var p := 4 + 2 * Count(f.averageSpeed);
    var d := ReadFrom(v, f, Layout, 0, 2).value[2];
    LayoutSlots();
    assert if f.totalDistance then GetUint24(v, Offset(f, Layout, 2)) == Success(d) else d == 0 by {
      WalkFieldAt(v, f, Layout, 2);
    }
    assert Offset(f, Layout, 2) == p by {
      SpeedToElevationOffsets(f);
    }
    if f.totalDistance {
      Uint24Octets(v, p);
    }
  }

  /** Total distance is the u24 `u16(p) + octet(p + 2) * 65536` just after the speeds, or 0. */
  lemma TotalDistanceField(v: seq<Byte>)
    requires Decode(v).Success?
    ensures var f := ParseFlags(FlagWord(v));
            var p := 4 + 2 * Count(f.averageSpeed);
            var d := Decode(v).value.totalDistance;
            && 0 <= d < 0x100_0000
            && (f.totalDistance ==> p + 3 <= |v| && d == v[p] as int + v[p + 1] as int * 0x100 + v[p + 2] as int * 0x1_0000)
            && (!f.totalDistance ==> d == 0)
  {
    var f := ParseFlags(FlagWord(v));
    DecodeIsWalk(v);
    var vals := ReadFrom(v, f, Layout, 0, 2).value;
    assert Decode(v).value.totalDistance == vals[2] by {
      assert ToValues(Decode(v).value) == vals;
    }
    WalkDistance(v, f);
  }

  lemma WalkInclination(v: seq<Byte>, f: Flags)
    requires f.instantaneousSpeed
    requires ReadFrom(v, f, Layout, 0, 2).Success?
    ensures var p := 4 + 2 * Count(f.averageSpeed) + 3 * Count(f.totalDistance);
            var x := ReadFrom(v, f, Layout, 0, 2).value[3];
            && (f.inclinationAndRampAngle ==>
                  p + 2 <= |v| &&
                  var u := v[p] as int + v[p + 1] as int * 0x100;
                  x == if u < 0x8000 then u else u - 0x1_0000)
            && (!f.inclinationAndRampAngle ==> x == 0)
  {
    var p := 4 + 2 * Count(f.averageSpeed) + 3 * Count(f.totalDistance);
    var x := ReadFrom(v, f, Layout, 0, 2).value[3];
    LayoutSlots();
    assert if f.inclinationAndRampAngle then GetInt16(v, Offset(f, Layout, 3)) == Success(x) else x == 0 by {
      WalkFieldAt(v, f, Layout, 3);
    }
    assert Offset(f, Layout, 3) == p by {
      SpeedToElevationOffsets(f);
    }
    if f.inclinationAndRampAngle {
      Int16Octets(v, p);
    }
  }

  /** Inclination is the two's-complement i16 just after the distance, or 0. */
  lemma InclinationField(v: seq<Byte>)
    requires Decode(v).Success?
    ensures var f := ParseFlags(FlagWord(v));
            var p := 4 + 2 * Count(f.averageSpeed) + 3 * Count(f.totalDistance);
            var x := Decode(v).value.inclination;
            && (f.inclinationAndRampAngle ==>
                  p + 2 <= |v| &&
                  var u := v[p] as int + v[p + 1] as int * 0x100;
                  x == if u < 0x8000 then u else u - 0x1_0000)
            && (!f.inclinationAndRampAngle ==> x == 0)
  {
    var f := ParseFlags(FlagWord(v));
    DecodeIsWalk(v);
    var vals := ReadFrom(v, f, Layout, 0, 2).value;
    assert Decode(v).value.inclination == vals[3] by {
      assert ToValues(Decode(v).value) == vals;
    }
    WalkInclination(v, f);
  }

  /**
   * The raw field ranges: the distance a u24; inclination, ramp angle, force
   * and power signed 16-bit; the rest unsigned 16- or 8-bit as transmitted.
   */
  predicate RawRanges(n: Notification) {
    && 0 <= n.instantaneousSpeed < 0x1_0000 && 0 <= n.averageSpeed < 0x1_0000
    && 0 <= n.totalDistance < 0x100_0000
    && -0x8000 <= n.inclination < 0x8000 && -0x8000 <= n.rampAngleSetting < 0x8000
    && 0 <= n.positiveElevationGain < 0x1_0000 && 0 <= n.negativeElevationGain < 0x1_0000
    && 0 <= n.instantaneousPace < 0x1_0000 && 0 <= n.averagePace < 0x1_0000
    && 0 <= n.totalEnergy < 0x1_0000 && 0 <= n.energyPerHour < 0x1_0000
    && 0 <= n.energyPerMinute < 0x100 && 0 <= n.heartRate < 0x100
    && 0 <= n.metabolicEquivalent < 0x100
    && 0 <= n.elapsedTime < 0x1_0000 && 0 <= n.remainingTime < 0x1_0000
    && -0x8000 <= n.forceOnBelt < 0x8000 && -0x8000 <= n.powerOutput < 0x8000
  }

  /** Field values that conform to some flags are within the raw ranges. */
  lemma ConformingRanges(f: Flags, n: Notification)
    requires Conforms(f, ToValues(n))
    ensures RawRanges(n)
  {
    var vals := ToValues(n);
    FitsInRange(f, Layout, vals);
    assert InRange(Layout[0].kind, vals[0]) && InRange(Layout[1].kind, vals[1]) && InRange(Layout[2].kind, vals[2]);
    assert InRange(Layout[3].kind, vals[3]) && InRange(Layout[4].kind, vals[4]) && InRange(Layout[5].kind, vals[5]);
    assert InRange(Layout[6].kind, vals[6]) && InRange(Layout[7].kind, vals[7]) && InRange(Layout[8].kind, vals[8]);
    assert InRange(Layout[9].kind, vals[9]) && InRange(Layout[10].kind, vals[10]) && InRange(Layout[11].kind, vals[11]);
    assert InRange(Layout[12].kind, vals[12]) && InRange(Layout[13].kind, vals[13]) && InRange(Layout[14].kind, vals[14]);
    assert InRange(Layout[15].kind, vals[15]) && InRange(Layout[16].kind, vals[16]) && InRange(Layout[17].kind, vals[17]);
  }

  /** Decoded values are the raw field values, unscaled: each within its encoding's range. */
  lemma DecodedRanges(v: seq<Byte>)
    requires Decode(v).Success?
    ensures RawRanges(Decode(v).value)
  {
    ConformingRanges(ParseFlags(FlagWord(v)), Decode(v).value);
  }

  /** Every value of a conforming sequence is within its slot's range (0 is in every range). */
  lemma FitsInRange(f: Flags, L: seq<Slot>, vals: seq<int>)
    requires |vals| == |L| && ConformsFrom(f, L, 0, vals)
    ensures forall j :: 0 <= j < |L| ==> InRange(L[j].kind, vals[j])
  {
    forall j | 0 <= j < |L|
      ensures InRange(L[j].kind, vals[j])
    {
      assert Fits(f, L[0 + j], vals[j]);
    }
  }

  /** A frame a peripheral may send: a flag word without "More Data" and conforming fields. */
  predicate ValidFrame(w: nat, n: Notification) {
    w < 0x1_0000 && !BitSet(w, 0) && Conforms(ParseFlags(w), ToValues(n))
  }

  /** The frame a peripheral sends for flag word `w` and field values `n`. */
  function EncodeFrame(w: nat, n: Notification): (r: seq<Byte>)
    requires ValidFrame(w, n)
    ensures |r| == FrameLength(ParseFlags(w))
  {
    OffsetPlusSpan(ParseFlags(w), Layout, 0);
    Encode(U16, w) + EncodeFrom(ParseFlags(w), Layout, 0, ToValues(n))
  }

  /** Decoding a frame built from `w` and `n` gives back `n`. */
  lemma DecodeEncode(w: nat, n: Notification)
    requires ValidFrame(w, n)
    ensures Decode(EncodeFrame(w, n)) == Success(n)
  {
    var f := ParseFlags(w);
    var v := EncodeFrame(w, n);
    var head := Encode(U16, w);
    var body := EncodeFrom(f, Layout, 0, ToValues(n));
    assert FlagWord(v) == w by {
      assert v == [] + head + body;
      GetEncode([], U16, w, body);
    }
    assert ReadFrom(v, f, Layout, 0, 2) == Success(ToValues(n)) by {
      assert v == head + body + [];
      ReadEncodeFrom(head, f, Layout, 0, ToValues(n), []);
    }
    DecodeOfWalk(v, ToValues(n));
  }

  /** The octets a successful walk from octet 2 covers, with the flag word in front, are the frame. */
  lemma WalkCoversFrame(v: seq<Byte>, f: Flags, L: seq<Slot>, vals: seq<int>)
    requires |v| >= 2
    requires ReadFrom(v, f, L, 0, 2) == Success(vals)
    ensures 2 <= Offset(f, L, |L|) <= |v|
    ensures v[..Offset(f, L, |L|)] == Encode(U16, FlagWord(v)) + EncodeFrom(f, L, 0, vals)
  {
    var end := Offset(f, L, |L|);
    assert 2 <= end <= |v| && EncodeFrom(f, L, 0, vals) == v[2..end] by {
      OffsetPlusSpan(f, L, 0);
      EncodeReadFrom(v, f, L, 0, 2);
    }
    assert Encode(U16, FlagWord(v)) == v[0..2] by {
      EncodeGet(v, U16, 0);
    }
    AdjacentSlices(v, 0, 2, end);
    assert v[..end] == v[0..end];
  }

  /** A decoded frame's octets are exactly the frame built from its flag word and values. */
  lemma EncodeDecode(v: seq<Byte>)
    requires Decode(v).Success?
    ensures FrameLength(ParseFlags(FlagWord(v))) <= |v|
    ensures ValidFrame(FlagWord(v), Decode(v).value)
    ensures v[..FrameLength(ParseFlags(FlagWord(v)))] == EncodeFrame(FlagWord(v), Decode(v).value)
  {
    DecodeIsWalk(v);
    WalkCoversFrame(v, ParseFlags(FlagWord(v)), Layout, ToValues(Decode(v).value));
  }

  /** Octets past the frame length never influence the result. */
  lemma DecodeIgnoresTrailing(v: seq<Byte>, u: seq<Byte>)
    requires Decode(v).Success?
    requires |u| >= FrameLength(ParseFlags(FlagWord(v)))
    requires u[..FrameLength(ParseFlags(FlagWord(v)))] == v[..FrameLength(ParseFlags(FlagWord(v)))]
    ensures Decode(u) == Decode(v)
  {
    var L := FrameLength(ParseFlags(FlagWord(v)));
    EncodeDecode(v);
    assert L >= 2;
    assert u[0] == u[..L][0] && u[1] == u[..L][1];
    assert v[0] == v[..L][0] && v[1] == v[..L][1];
    assert FlagWord(u) == FlagWord(v);
    EncodeDecode(u);
    DecodeEncode(FlagWord(v), Decode(v).value);
    DecodeEncode(FlagWord(v), Decode(u).value);
  }

  // ----- Sample frames -----

  /** The flags of a frame carrying the speed and the groups whose bits are listed. */
  function OnlyFlags(avg: bool, dist: bool, incl: bool): Flags {
    Flags(true, avg, dist, incl, false, false, false, false, false, false, false, false, false)
  }

  /** A frame with only the speed: 10.00 km/h, and every other field 0. */
  lemma SpeedOnlyFrame()
    ensures var r := Decode([0x00, 0x00, 0xE8, 0x03]);
            r.Success? && r.value.instantaneousSpeed == 1000 && r.value.totalDistance == 0 && r.value.inclination == 0
  {
    var v: seq<Byte> := [0x00, 0x00, 0xE8, 0x03];
    assert FlagWord(v) == 0;
    assert ParseFlags(0) == OnlyFlags(false, false, false);
    FrameLengthFormula(OnlyFlags(false, false, false));
    InstantaneousSpeedField(v);
    TotalDistanceField(v);
    InclinationField(v);
  }

  /** Speed and total distance: 10.00 km/h after 10000 m; a trailing octet is ignored. */
  lemma SpeedAndDistanceFrame()
    ensures var r := Decode([0x04, 0x00, 0xE8, 0x03, 0x10, 0x27, 0x00, 0xFF]);
            r.Success? && r.value.instantaneousSpeed == 1000 && r.value.totalDistance == 10000
  {
    var v: seq<Byte> := [0x04, 0x00, 0xE8, 0x03, 0x10, 0x27, 0x00, 0xFF];
    assert FlagWord(v) == 4;
    assert ParseFlags(4) == OnlyFlags(false, true, false);
    FrameLengthFormula(OnlyFlags(false, true, false));
    InstantaneousSpeedField(v);
    TotalDistanceField(v);
  }

  /** A negative inclination of -1.0 % arrives as 0xFFF6. */
  lemma NegativeInclinationFrame()
    ensures var r := Decode([0x08, 0x00, 0xE8, 0x03, 0xF6, 0xFF, 0x00, 0x00]);
            r.Success? && r.value.inclination == -10
  {
    var v: seq<Byte> := [0x08, 0x00, 0xE8, 0x03, 0xF6, 0xFF, 0x00, 0x00];
    assert FlagWord(v) == 8;
    assert ParseFlags(8) == OnlyFlags(false, false, true);
    FrameLengthFormula(OnlyFlags(false, false, true));
    InclinationField(v);
    assert 4 + 2 * Count(false) + 3 * Count(false) == 4;
    assert v[4] as int + v[5] as int * 0x100 == 0xFFF6;
  }

  /** Buffers too short for the flag word or for a flagged field throw a range error. */
  lemma ShortFrames()
    ensures Decode([]) == Failure(OutOfBounds)
    ensures Decode([0x00]) == Failure(OutOfBounds)
    ensures Decode([0x00, 0x00, 0xE8]) == Failure(OutOfBounds)
    ensures Decode([0x04, 0x00, 0xE8, 0x03, 0x10, 0x27]) == Failure(OutOfBounds)
  {
    NoFlagWord();
    TruncatedSpeed();
    TruncatedDistance();
  }

  lemma NoFlagWord()
    ensures Decode([]) == Failure(OutOfBounds)
    ensures Decode([0x00]) == Failure(OutOfBounds)
  {
  }

  lemma TruncatedSpeed()
    ensures Decode([0x00, 0x00, 0xE8]) == Failure(OutOfBounds)
  {
    assert ParseFlags(0) == OnlyFlags(false, false, false);
    FrameLengthFormula(OnlyFlags(false, false, false));
  }

  lemma TruncatedDistance()
    ensures Decode([0x04, 0x00, 0xE8, 0x03, 0x10, 0x27]) == Failure(OutOfBounds)
  {
    assert ParseFlags(4) == OnlyFlags(false, true, false);
    FrameLengthFormula(OnlyFlags(false, true, false));
  }

  /** A continuation frame is refused before any field is read, however short. */
  lemma ContinuationFrame()
    ensures Decode([0x01, 0x00]) == Failure(MultiPacketNotSupported)
    ensures Decode([0xFF, 0xFF, 0xE8, 0x03]) == Failure(MultiPacketNotSupported)
  {
    BareContinuation();
    FullContinuation();
  }

  lemma BareContinuation()
    ensures Decode([0x01, 0x00]) == Failure(MultiPacketNotSupported)
  {
  }

  lemma FullContinuation()
    ensures Decode([0xFF, 0xFF, 0xE8, 0x03]) == Failure(MultiPacketNotSupported)
  {
  }
}

=== FILE: training_status.dfy ===
/**
 * Training status notifications as the application accepts them. The
 * characteristic's own parser is not part of this model: its output, a numeric
 * status with a label, is an input here, and only four labels are supported.
 */
module Status {
  import opened Wrappers

  /** The training statuses the application tracks. */
  datatype SupportedStatus = Idle | PreWorkout | PostWorkout | ManualMode

  /** The label the characteristic's parser gives each supported status. */
  function Label(s: SupportedStatus): string {
    match s
    case Idle => "Idle"
    case PreWorkout => "Pre-Workout"
    case PostWorkout => "Post-Workout"
    case ManualMode => "Manual Mode (Quick Start)"
  }

  /** `isSupportedTrainingStatus`: the supported status a label names, if any. */
  function FromLabel(text: string): (r: Option<SupportedStatus>)
    ensures r.Some? ==> Label(r.value) == text
    ensures (exists s :: Label(s) == text) ==> r.Some?
  {
    if text == "Idle" then Some(Idle)
    else if text == "Pre-Workout" then Some(PreWorkout)
    else if text == "Post-Workout" then Some(PostWorkout)
    else if text == "Manual Mode (Quick Start)" then Some(ManualMode)
    else None
  }

  /** Labels are distinct, so a supported status is recovered from its label. */
  lemma FromLabelOfLabel(s: SupportedStatus)
    ensures FromLabel(Label(s)) == Some(s)
  {
  }

  /** What the characteristic's parser yields: the status code and its label. */
  datatype RawStatus = RawStatus(status: int, stringFromStatus: string)

  /** The training status event payload: when it was seen, the code, the supported label. */
  datatype TrainingStatus = TrainingStatus(timestamp: int, status: int, stringFromStatus: SupportedStatus)

  /** The error `toTrainingStatus` throws, carrying the label it could not convert. */
  datatype Unsupported = Unsupported(stringFromStatus: string)

  /** `toTrainingStatus`, with `Date.now()` as `now`. */
  function ToTrainingStatus(d: RawStatus, now: int): (r: Result<TrainingStatus, Unsupported>)
    ensures r.Success? <==> d.stringFromStatus in {"Idle", "Pre-Workout", "Post-Workout", "Manual Mode (Quick Start)"}
    ensures r.Success? ==> r.value.timestamp == now && r.value.status == d.status
                           && Label(r.value.stringFromStatus) == d.stringFromStatus
    ensures r.Failure? ==> r.error == Unsupported(d.stringFromStatus)
  {
    match FromLabel(d.stringFromStatus)
    case Some(s) => Success(TrainingStatus(now, d.status, s))
    case None => Failure(Unsupported(d.stringFromStatus))
  }

  /** Labels are compared exactly: a different spelling is unsupported. */
  lemma SampleLabels()
    ensures ToTrainingStatus(RawStatus(1, "Idle"), 5) == Success(TrainingStatus(5, 1, Idle))
    ensures ToTrainingStatus(RawStatus(13, "Manual Mode (Quick Start)"), 5).Success?
    ensures ToTrainingStatus(RawStatus(2, "Warming Up"), 5) == Failure(Unsupported("Warming Up"))
    ensures ToTrainingStatus(RawStatus(1, "idle"), 5).Failure?
  {
  }
}

=== FILE: treadmill.dfy ===
/**
 * The `Treadmill` controller: connection and reconnection with exponential
 * backoff, the target speed, the gating of telemetry by training status, and
 * the assembly of a session when a workout ends.
 *
 * Each handler is a pure function from the controller's state (and the
 * handler's inputs) to the next state and the effects it requests, in order:
 * events dispatched to the document, timers scheduled or cleared,
 * notifications started or stopped, writes to the control point. The outcome
 * of each Bluetooth operation, the clock and the database query for the
 * average speed are inputs.
 */
module Treadmill {
  import opened Wrappers
  import opened Wire
  import Ftms
  import opened Status
  import Units

  // ----- State -----

  datatype ConnectionState = Disconnected | Connecting | Connected | Reconnecting

  /**
   * The timer the reconnect handle names. A handle that has fired is still
   * set: only `cancelReconnect` and `disconnect` clear it.
   */
  datatype RetryTimer = NoTimer | Pending | Fired

  /** The record a telemetry notification becomes. */
  datatype TreadmillData = TreadmillData(
    timestamp: int,          // ms since the epoch
    speed: real,             // mph, one decimal
    distance: real,          // miles, two decimals
    elapsedTime: int,        // s
    formattedTime: string,   // HH:MM:SS
    kcal: int)

  /** A finished workout. */
  datatype Session = Session(
    started: int,
    ended: int,
    duration: int,
    distance: real,
    averageSpeed: real,
    energyExpended: int)

  datatype Machine = Machine(
    connection: ConnectionState,
    reconnectAttempts: nat,
    wasConnected: bool,
    timer: RetryTimer,
    leaked: nat,                     // pending timers whose handle was overwritten: no clearTimeout reaches them
    hasProfile: bool,                // a discovered fitness machine profile is held
    status: SupportedStatus,
    lastData: Option<TreadmillData>,
    sessionStarted: Option<int>,
    startProbe: bool,                // a one-shot listener will derive the start time from the next telemetry
    targetSpeed: real)               // mph

  const MaxReconnectAttempts: nat := 5
  const InitialTargetSpeed: real := 0.6
  const MaxTargetSpeed: real := 12.0
  const MinDecreasedSpeed: real := 0.6

  /** A freshly constructed controller. */
  const Initial: Machine :=
    Machine(Disconnected, 0, false, NoTimer, 0, false, Idle, None, None, false, InitialTargetSpeed)

  // ----- Inputs and effects -----

  /** How `connect` went: the GATT connection, the discovery, and the initial status read. */
  datatype ConnectOutcome =
    | GattFailed
    | DiscoveryFailed
    | Established(statusRead: Option<RawStatus>)   // None: the read or its parsing threw

  /** What the reconnect timer's callback found. */
  datatype RetryOutcome =
    | NoGatt        // the device has no GATT server: the callback does nothing
    | Reconnected   // connection and discovery succeeded
    | RetryFailed   // connection or discovery threw

  datatype Event =
    | Connect(outcome: ConnectOutcome, now: int)
    | LinkDropped                                           // `gattserverdisconnected`
    | RetryTimerFired(retry: RetryOutcome)                  // the timer the handle names
    | LeakedTimerFired(retry: RetryOutcome)                 // a timer whose handle was overwritten
    | CancelReconnect
    | Disconnect
    | SetTargetSpeed(speed: real)
    | IncreaseSpeed(increment: real)
    | DecreaseSpeed(decrement: real)
    | TreadmillDataNotification(value: seq<Byte>, now: int)
    | TrainingStatusNotification(parsed: Option<RawStatus>, now: int)  // None: the parser threw

  datatype Characteristic = TreadmillDataChar | TrainingStatusChar

  datatype ConnectError = GattUnavailable | ProfileUnavailable

  datatype Output =
    | ConnectionStateChanged(state: ConnectionState, attempt: Option<nat>)
    | TreadmillDisconnectedEvent
    | TreadmillReconnectedEvent
    | ScheduleRetry(delay: nat)            // setTimeout, ms
    | ClearRetry                           // clearTimeout
    | StartNotifications(ch: Characteristic)
    | StopNotifications(ch: Characteristic)
    | ConnectThrew(error: ConnectError)
    | TargetSpeedChanged(speed: real)
    | WriteSetSpeed(mph: real)             // the control point write `setSpeed` performs
    | ResolvedWithoutWrite                 // the speed request resolves to true at once
    | TreadmillDataEvent(data: TreadmillData)
    | TrainingStatusChanged(trainingStatus: TrainingStatus)
    | SessionEnded(session: Session)

  /** The state a handler leaves and the effects it requested, in order. */
  datatype Reaction = Reaction(state: Machine, outputs: seq<Output>)

  /** The parts of the state that belong to the workout rather than the link. */
  predicate SameWorkout(a: Machine, b: Machine) {
    && a.status == b.status && a.lastData == b.lastData && a.sessionStarted == b.sessionStarted
    && a.startProbe == b.startProbe && a.targetSpeed == b.targetSpeed
  }

  // ----- Connection -----

  /** The delay before reconnect attempt `n`: `min(1000 * 2^(n - 1), 16000)` ms. */
  function Backoff(n: nat): (delay: nat)
    requires n >= 1
    ensures 1000 <= delay <= 16000
  {
    var d := 1000 * Pow2(n - 1);
    if d < 16000 then d else 16000
  }

  /**
   * `attemptReconnect`: count the attempt, announce it, and arm a timer. The
   * handle is overwritten without `clearTimeout`, so a timer that was still
   * pending stays scheduled, out of reach of any later clear.
   */
  function AttemptReconnect(m: Machine): (r: Reaction)
    ensures r.state.connection == Reconnecting && r.state.timer == Pending
    ensures r.state.reconnectAttempts == m.reconnectAttempts + 1
    ensures r.outputs == [ConnectionStateChanged(Reconnecting, Some(r.state.reconnectAttempts)),
                          ScheduleRetry(Backoff(r.state.reconnectAttempts))]
    ensures m.timer == Pending ==> r.state.leaked == m.leaked + 1
    ensures m.timer != Pending ==> r.state.leaked == m.leaked
    ensures r.state == m.(connection := Reconnecting, timer := Pending, leaked := r.state.leaked,
                          reconnectAttempts := r.state.reconnectAttempts)
  {
    var n := m.reconnectAttempts + 1;
    var orphaned := if m.timer == Pending then m.leaked + 1 else m.leaked;
    Reaction(m.(reconnectAttempts := n, connection := Reconnecting, timer := Pending, leaked := orphaned),
             [ConnectionStateChanged(Reconnecting, Some(n)), ScheduleRetry(Backoff(n))])
  }

  /** Give up on the link: announce "disconnected" and dispatch `treadmilldisconnected`. */
  function GiveUp(m: Machine): (r: Reaction)
    ensures r.state == m.(connection := Disconnected)
    ensures r.outputs == [ConnectionStateChanged(Disconnected, None), TreadmillDisconnectedEvent]
  {
    Reaction(m.(connection := Disconnected), [ConnectionStateChanged(Disconnected, None), TreadmillDisconnectedEvent])
  }

  /** `onDisconnected`: retry if the link had been up and attempts remain, else give up. */
  function OnDisconnected(m: Machine): (r: Reaction)
    ensures r.state.connection == Reconnecting <==> m.wasConnected && m.reconnectAttempts < MaxReconnectAttempts
    ensures r.state.connection != Reconnecting ==>
              && r.state == m.(connection := Disconnected)
              && r.outputs == [ConnectionStateChanged(Disconnected, None), TreadmillDisconnectedEvent]
    ensures r.state.connection == Reconnecting ==>
              && r.state.reconnectAttempts == m.reconnectAttempts + 1 <= MaxReconnectAttempts
              && r.state.timer == Pending && r.state.leaked == m.leaked + (if m.timer == Pending then 1 else 0)
    ensures r.state.wasConnected == m.wasConnected && r.state.hasProfile == m.hasProfile
    ensures SameWorkout(m, r.state)
  {
    if m.wasConnected && m.reconnectAttempts < MaxReconnectAttempts then AttemptReconnect(m)
    else GiveUp(m)
  }

  /**
   * The body of the reconnect timer's callback, whichever timer runs it.
   * Without a GATT server it does nothing at all. A reconnection restarts both
   * notifications, announces "connected", zeroes the attempts and dispatches
   * `treadmillreconnected`. A failed attempt retries while attempts remain and
   * otherwise gives up, without clearing `wasConnected`.
   */
  function RetryCallback(m: Machine, o: RetryOutcome): (r: Reaction)
    ensures o == NoGatt ==> r == Reaction(m, [])
    ensures o == Reconnected ==>
              && r.state == m.(hasProfile := true, connection := Connected, reconnectAttempts := 0)
              && r.outputs == [StartNotifications(TreadmillDataChar), StartNotifications(TrainingStatusChar),
                               ConnectionStateChanged(Connected, None), TreadmillReconnectedEvent]
    ensures o == RetryFailed ==>
              && (r.state.connection == Reconnecting <==> m.reconnectAttempts < MaxReconnectAttempts)
              && (m.reconnectAttempts < MaxReconnectAttempts ==>
                    && r.state.reconnectAttempts == m.reconnectAttempts + 1 && r.state.timer == Pending
                    && r.state.leaked == m.leaked + (if m.timer == Pending then 1 else 0)
                    && r.outputs == [ConnectionStateChanged(Reconnecting, Some(m.reconnectAttempts + 1)),
                                     ScheduleRetry(Backoff(m.reconnectAttempts + 1))])
              && (m.reconnectAttempts >= MaxReconnectAttempts ==>
                    && r.state == m.(connection := Disconnected)
                    && r.outputs == [ConnectionStateChanged(Disconnected, None), TreadmillDisconnectedEvent])
    ensures r.state.wasConnected == m.wasConnected && SameWorkout(m, r.state)
  {
    match o
    case NoGatt => Reaction(m, [])
    case Reconnected =>
      Reaction(m.(hasProfile := true, connection := Connected, reconnectAttempts := 0),
               [StartNotifications(TreadmillDataChar), StartNotifications(TrainingStatusChar),
                ConnectionStateChanged(Connected, None), TreadmillReconnectedEvent])
    case RetryFailed =>
      if m.reconnectAttempts < MaxReconnectAttempts then AttemptReconnect(m) else GiveUp(m)
  }

  /**
   * The timer the handle names fires. It runs only while that timer is
   * pending (clearing it cancels it); afterwards the handle stays set. Without
   * a GATT server the controller is left "reconnecting" with no timer pending.
   */
  function OnRetryTimer(m: Machine, o: RetryOutcome): (r: Reaction)
    ensures m.timer != Pending ==> r == Reaction(m, [])
    ensures m.timer == Pending && o == NoGatt ==> r == Reaction(m.(timer := Fired), [])
    ensures m.timer == Pending && o == Reconnected ==>
              && r.state == m.(timer := Fired, hasProfile := true, connection := Connected, reconnectAttempts := 0)
              && r.outputs == [StartNotifications(TreadmillDataChar), StartNotifications(TrainingStatusChar),
                               ConnectionStateChanged(Connected, None), TreadmillReconnectedEvent]
    ensures m.timer == Pending && o == RetryFailed ==>
              && (r.state.connection == Reconnecting <==> m.reconnectAttempts < MaxReconnectAttempts)
              && (m.reconnectAttempts < MaxReconnectAttempts ==>
                    r.state.reconnectAttempts == m.reconnectAttempts + 1 && r.state.timer == Pending
                    && r.state.leaked == m.leaked)
              && (m.reconnectAttempts >= MaxReconnectAttempts ==>
                    && r.state == m.(timer := Fired, connection := Disconnected)
                    && r.outputs == [ConnectionStateChanged(Disconnected, None), TreadmillDisconnectedEvent])
    ensures r.state.wasConnected == m.wasConnected && SameWorkout(m, r.state)
  {
    if m.timer != Pending then Reaction(m, [])
    else RetryCallback(m.(timer := Fired), o)
  }

  /**
   * A timer whose handle was overwritten fires. Its callback is the same as
   * any other's, and no clear ever cancelled it; the handle still names the
   * newest timer, unless the callback arms another.
   */
  function OnLeakedTimer(m: Machine, o: RetryOutcome): (r: Reaction)
    ensures m.leaked == 0 ==> r == Reaction(m, [])
    ensures m.leaked > 0 && o == NoGatt ==> r == Reaction(m.(leaked := m.leaked - 1), [])
    ensures m.leaked > 0 && o == Reconnected ==>
              && r.state == m.(leaked := m.leaked - 1, hasProfile := true, connection := Connected, reconnectAttempts := 0)
              && r.outputs == [StartNotifications(TreadmillDataChar), StartNotifications(TrainingStatusChar),
                               ConnectionStateChanged(Connected, None), TreadmillReconnectedEvent]
    ensures m.leaked > 0 && o == RetryFailed ==>
              && (r.state.connection == Reconnecting <==> m.reconnectAttempts < MaxReconnectAttempts)
              && (m.reconnectAttempts < MaxReconnectAttempts ==>
                    && r.state.timer == Pending && r.state.leaked == m.leaked - 1 + (if m.timer == Pending then 1 else 0)
                    && r.state.reconnectAttempts == m.reconnectAttempts + 1
                    && r.outputs == [ConnectionStateChanged(Reconnecting, Some(m.reconnectAttempts + 1)),
                                     ScheduleRetry(Backoff(m.reconnectAttempts + 1))])
              && (m.reconnectAttempts >= MaxReconnectAttempts ==>
                    && r.state == m.(leaked := m.leaked - 1, connection := Disconnected)
                    && r.outputs == [ConnectionStateChanged(Disconnected, None), TreadmillDisconnectedEvent])
    ensures r.state.wasConnected == m.wasConnected && SameWorkout(m, r.state)
  {
    if m.leaked == 0 then Reaction(m, [])
    else RetryCallback(m.(leaked := m.leaked - 1), o)
  }

  /** The `clearTimeout` call both `cancelReconnect` and `disconnect` make when a handle is set. */
  function ClearTimer(m: Machine): (outs: seq<Output>)
    ensures ClearRetry in outs <==> m.timer != NoTimer
    ensures forall o :: o in outs ==> o == ClearRetry
  {
    if m.timer != NoTimer then [ClearRetry] else []
  }

  /**
   * `cancelReconnect`: clear the timer the handle names, forget the link, zero
   * the attempts. No `treadmilldisconnected`. Leaked timers stay pending.
   */
  function OnCancelReconnect(m: Machine): (r: Reaction)
    ensures && r.state.connection == Disconnected && r.state.timer == NoTimer
            && !r.state.wasConnected && r.state.reconnectAttempts == 0
    ensures r.state.leaked == m.leaked
    ensures ClearRetry in r.outputs <==> m.timer != NoTimer
    ensures TreadmillDisconnectedEvent !in r.outputs
    ensures |r.outputs| > 0 && r.outputs[|r.outputs| - 1] == ConnectionStateChanged(Disconnected, None)
    ensures forall o :: o in r.outputs ==> o == ClearRetry || o == ConnectionStateChanged(Disconnected, None)
    ensures r.state.hasProfile == m.hasProfile && SameWorkout(m, r.state)
  {
    Reaction(m.(timer := NoTimer, wasConnected := false, reconnectAttempts := 0, connection := Disconnected),
             ClearTimer(m) + [ConnectionStateChanged(Disconnected, None)])
  }

  /**
   * `disconnect`: clear the timer the handle names, forget the link, stop both
   * notifications when a profile is held, and announce it. The attempt counter
   * is kept, and so are leaked timers.
   */
  function OnDisconnect(m: Machine): (r: Reaction)
    ensures && r.state.connection == Disconnected && r.state.timer == NoTimer
            && !r.state.wasConnected && r.state.reconnectAttempts == m.reconnectAttempts
    ensures r.state.leaked == m.leaked
    ensures ClearRetry in r.outputs <==> m.timer != NoTimer
    ensures StopNotifications(TreadmillDataChar) in r.outputs <==> m.hasProfile
    ensures StopNotifications(TrainingStatusChar) in r.outputs <==> m.hasProfile
    ensures |r.outputs| >= 2 && r.outputs[|r.outputs| - 1] == TreadmillDisconnectedEvent
    ensures r.outputs[|r.outputs| - 2] == ConnectionStateChanged(Disconnected, None)
    ensures forall o :: o in r.outputs ==>
              || o == ClearRetry || o.StopNotifications?
              || o == ConnectionStateChanged(Disconnected, None) || o == TreadmillDisconnectedEvent
    ensures r.state.hasProfile == m.hasProfile && SameWorkout(m, r.state)
  {
    var stop := if m.hasProfile then [StopNotifications(TreadmillDataChar), StopNotifications(TrainingStatusChar)] else [];
    Reaction(m.(timer := NoTimer, wasConnected := false, connection := Disconnected),
             ClearTimer(m) + stop + [ConnectionStateChanged(Disconnected, None), TreadmillDisconnectedEvent])
  }

  /**
   * `connect`. A failed GATT connection or discovery announces "disconnected"
   * and throws. Otherwise telemetry notifications start, the training status is
   * read (a status other than "Idle" means the workout is already running, so a
   * one-shot listener will derive its start from the next telemetry), status
   * notifications start, and the link is up with no attempts counted.
   */
  function OnConnect(m: Machine, outcome: ConnectOutcome, now: int): (r: Reaction)
    ensures |r.outputs| >= 2 && r.outputs[0] == ConnectionStateChanged(Connecting, None)
    ensures !outcome.Established? ==>
              && r.state == m.(connection := Disconnected)
              && r.outputs[1] == ConnectionStateChanged(Disconnected, None)
              && r.outputs[|r.outputs| - 1] == ConnectThrew(if outcome == GattFailed then GattUnavailable else ProfileUnavailable)
              && r.outputs == [ConnectionStateChanged(Connecting, None), ConnectionStateChanged(Disconnected, None),
                               ConnectThrew(if outcome == GattFailed then GattUnavailable else ProfileUnavailable)]
    ensures outcome.Established? ==>
              && StartNotifications(TreadmillDataChar) in r.outputs
              && StartNotifications(TrainingStatusChar) in r.outputs
              && StopNotifications(TreadmillDataChar) !in r.outputs
              && r.outputs[1] == StartNotifications(TreadmillDataChar)
              && r.outputs[|r.outputs| - 2] == StartNotifications(TrainingStatusChar)
    ensures outcome.Established? ==>
              var read := outcome.statusRead;
              r.outputs == [ConnectionStateChanged(Connecting, None), StartNotifications(TreadmillDataChar)]
                           + (if read.Some? && ToTrainingStatus(read.value, now).Success?
                              then [TrainingStatusChanged(ToTrainingStatus(read.value, now).value)] else [])
                           + [StartNotifications(TrainingStatusChar), ConnectionStateChanged(Connected, None)]
    ensures outcome.Established? ==>
              && r.state.connection == Connected && r.state.wasConnected && r.state.reconnectAttempts == 0
              && r.state.hasProfile && r.state.timer == m.timer && r.state.leaked == m.leaked
              && r.state.lastData == m.lastData && r.state.sessionStarted == m.sessionStarted
              && r.state.targetSpeed == m.targetSpeed
              && r.outputs[|r.outputs| - 1] == ConnectionStateChanged(Connected, None)
    ensures outcome.Established? ==>
              var read := outcome.statusRead;
              if read.Some? && ToTrainingStatus(read.value, now).Success?
              then var s := ToTrainingStatus(read.value, now).value.stringFromStatus;
                   && r.state.status == s && (r.state.startProbe <==> m.startProbe || s != Idle)
                   && TrainingStatusChanged(ToTrainingStatus(read.value, now).value) in r.outputs
              else r.state.status == m.status && r.state.startProbe == m.startProbe
  {
    var connecting := m.(connection := Connecting);
    var announce := [ConnectionStateChanged(Connecting, None)];
    match outcome
    case GattFailed =>
      Reaction(m.(connection := Disconnected),
               announce + [ConnectionStateChanged(Disconnected, None), ConnectThrew(GattUnavailable)])
    case DiscoveryFailed =>
      Reaction(m.(connection := Disconnected),
               announce + [ConnectionStateChanged(Disconnected, None), ConnectThrew(ProfileUnavailable)])
    case Established(read) =>
      var discovered := connecting.(hasProfile := true);
      var started := announce + [StartNotifications(TreadmillDataChar)];
      var withStatus :=
        if read.Some? && ToTrainingStatus(read.value, now).Success? then
          var ts := ToTrainingStatus(read.value, now).value;
          Reaction(discovered.(status := ts.stringFromStatus, startProbe := discovered.startProbe || ts.stringFromStatus != Idle),
                   started + [TrainingStatusChanged(ts)])
        else Reaction(discovered, started);
      Reaction(withStatus.state.(connection := Connected, wasConnected := true, reconnectAttempts := 0),
               withStatus.outputs + [StartNotifications(TrainingStatusChar), ConnectionStateChanged(Connected, None)])
  }

  // ----- Target speed -----

  /** `Math.max(0, Math.min(speed, 12))`. */
  function Clamp(speed: real): (r: real)
    ensures 0.0 <= r <= MaxTargetSpeed
    ensures 0.0 <= speed <= MaxTargetSpeed ==> r == speed
    ensures speed < 0.0 ==> r == 0.0
    ensures speed > MaxTargetSpeed ==> r == MaxTargetSpeed
  {
    var capped := if speed < MaxTargetSpeed then speed else MaxTargetSpeed;
    if 0.0 > capped then 0.0 else capped
  }

  /** The `targetSpeed` setter: store the clamped speed and announce it. */
  function AssignTargetSpeed(m: Machine, speed: real): (r: Reaction)
    ensures 0.0 <= r.state.targetSpeed <= MaxTargetSpeed
    ensures 0.0 <= speed <= MaxTargetSpeed ==> r.state.targetSpeed == speed
    ensures speed < 0.0 ==> r.state.targetSpeed == 0.0
    ensures speed > MaxTargetSpeed ==> r.state.targetSpeed == MaxTargetSpeed
    ensures r.state == m.(targetSpeed := r.state.targetSpeed)
    ensures r.outputs == [TargetSpeedChanged(r.state.targetSpeed)]
  {
    var clamped := Clamp(speed);
    Reaction(m.(targetSpeed := clamped), [TargetSpeedChanged(clamped)])
  }

  /** `this.lastData?.speed ?? this._targetSpeed`. */
  function CurrentSpeed(m: Machine): real {
    match m.lastData
    case Some(d) => d.speed
    case None => m.targetSpeed
  }

  /** While the machine runs in manual mode the speed goes to the control point; otherwise nothing is written. */
  function SpeedCommand(status: SupportedStatus, speed: real): (outs: seq<Output>)
    ensures status == ManualMode ==> outs == [WriteSetSpeed(speed)]
    ensures status != ManualMode ==> outs == [ResolvedWithoutWrite]
  {
    if status == ManualMode then [WriteSetSpeed(speed)] else [ResolvedWithoutWrite]
  }

  /** `increaseSpeed`: the target follows `current + increment`; the write sends it unclamped. */
  function OnIncreaseSpeed(m: Machine, increment: real): (r: Reaction)
    ensures 0.0 <= r.state.targetSpeed <= MaxTargetSpeed
    ensures 0.0 <= CurrentSpeed(m) + increment <= MaxTargetSpeed ==> r.state.targetSpeed == CurrentSpeed(m) + increment
    ensures r.state.targetSpeed == Clamp(CurrentSpeed(m) + increment)
    ensures r.state == m.(targetSpeed := r.state.targetSpeed)
    ensures WriteSetSpeed(CurrentSpeed(m) + increment) in r.outputs <==> m.status == ManualMode
    ensures ResolvedWithoutWrite in r.outputs <==> m.status != ManualMode
    ensures |r.outputs| > 0 && r.outputs[0] == TargetSpeedChanged(r.state.targetSpeed)
  {
    var newSpeed := CurrentSpeed(m) + increment;
    var retargeted := AssignTargetSpeed(m, newSpeed);
    Reaction(retargeted.state, retargeted.outputs + SpeedCommand(m.status, newSpeed))
  }

  /** `decreaseSpeed`: the target follows `max(0.6, current - decrement)`, so it never drops below 0.6. */
  function OnDecreaseSpeed(m: Machine, decrement: real): (r: Reaction)
    ensures MinDecreasedSpeed <= r.state.targetSpeed <= MaxTargetSpeed
    ensures var s := CurrentSpeed(m) - decrement;
            MinDecreasedSpeed <= s <= MaxTargetSpeed ==> r.state.targetSpeed == s
    ensures var s := CurrentSpeed(m) - decrement;
            r.state.targetSpeed == Clamp(if s < MinDecreasedSpeed then MinDecreasedSpeed else s)
    ensures r.state == m.(targetSpeed := r.state.targetSpeed)
    ensures var s := CurrentSpeed(m) - decrement;
            WriteSetSpeed(if s < MinDecreasedSpeed then MinDecreasedSpeed else s) in r.outputs <==> m.status == ManualMode
    ensures ResolvedWithoutWrite in r.outputs <==> m.status != ManualMode
    ensures |r.outputs| > 0 && r.outputs[0] == TargetSpeedChanged(r.state.targetSpeed)
  {
    var lowered := CurrentSpeed(m) - decrement;
    var newSpeed := if MinDecreasedSpeed > lowered then MinDecreasedSpeed else lowered;
    var retargeted := AssignTargetSpeed(m, newSpeed);
    Reaction(retargeted.state, retargeted.outputs + SpeedCommand(m.status, newSpeed))
  }

  // ----- Telemetry -----

  /**
   * What the displayed record keeps of a decoded notification: the elapsed time
   * and energy as they came, the speed in mph to 0.1, the distance in miles to
   * 0.01 (each within half a display step of the exact conversion), and a clock
   * that reads back as the elapsed time within the day.
   */
  ghost predicate Converted(n: Ftms.Notification, d: TreadmillData) {
    && d.elapsedTime == n.elapsedTime && d.kcal == n.totalEnergy
    && -0.05 < d.speed - n.instantaneousSpeed as real / 100.0 * Units.MphPerKmph <= 0.05
    && -0.005 < d.distance - n.totalDistance as real * Units.MilesPerMeter <= 0.005
    && (d.speed * 10.0).Floor as real == d.speed * 10.0
    && (d.distance * 100.0).Floor as real == d.distance * 100.0
    && Units.ParseClock(d.formattedTime) == Some(n.elapsedTime % Units.SecondsPerDay)
  }

  /** `toTreadmillData`: speed in mph, distance in miles, elapsed time as a clock, stamped `now`. */
  function ToTreadmillData(n: Ftms.Notification, now: int): (d: TreadmillData)
    requires 0 <= n.elapsedTime < 0x1_0000
    ensures d.timestamp == now && Converted(n, d)
  {
    Units.ParseFormatTime(n.elapsedTime);
    TreadmillData(now, Units.KmphToMph(n.instantaneousSpeed as real / 100.0),
                  Units.MetersToMiles(n.totalDistance as real),
                  n.elapsedTime, Units.FormatTime(n.elapsedTime), n.totalEnergy)
  }

  /** The decoded record of a telemetry value, or None when decoding throws. */
  function Telemetry(value: seq<Byte>, now: int): (r: Option<TreadmillData>)
    ensures r.Some? <==> Ftms.Decode(value).Success?
    ensures r.Some? ==> r.value.timestamp == now && r.value.elapsedTime == Ftms.Decode(value).value.elapsedTime
    ensures r.Some? ==> Converted(Ftms.Decode(value).value, r.value)
  {
    match Ftms.Decode(value)
    case Failure(_) => None
    case Success(n) =>
      Ftms.DecodedRanges(value);
      Some(ToTreadmillData(n, now))
  }

  /**
   * `onTreadmillDataNotification`: ignored while "Idle"; otherwise the record is
   * dispatched, and kept as `lastData` only in manual mode.
   */
  function OnTreadmillData(m: Machine, value: seq<Byte>, now: int): (r: Reaction)
    ensures m.status == Idle || Telemetry(value, now).None? ==> r == Reaction(m, [])
    ensures m.status != Idle && Telemetry(value, now).Some? ==>
              && r.outputs == [TreadmillDataEvent(Telemetry(value, now).value)]
              && r.state.lastData == (if m.status == ManualMode then Telemetry(value, now) else m.lastData)
    ensures r.state == m.(lastData := r.state.lastData)
  {
    if m.status == Idle then Reaction(m, [])
    else
      match Telemetry(value, now)
      case None => Reaction(m, [])
      case Some(data) =>
        Reaction(if m.status == ManualMode then m.(lastData := Some(data)) else m, [TreadmillDataEvent(data)])
  }

  /**
   * The one-shot listener `connect` adds after the telemetry handler: the first
   * telemetry value consumes it, and sets the start time to `now` minus the
   * elapsed time when the value decodes.
   */
  function OnStartProbe(m: Machine, value: seq<Byte>, now: int): (r: Machine)
    ensures !r.startProbe
    ensures m.startProbe && Telemetry(value, now).Some? ==>
              r.sessionStarted == Some(now - Telemetry(value, now).value.elapsedTime * 1000)
    ensures !(m.startProbe && Telemetry(value, now).Some?) ==> r.sessionStarted == m.sessionStarted
    ensures r == m.(startProbe := false, sessionStarted := r.sessionStarted)
  {
    if !m.startProbe then m
    else
      match Telemetry(value, now)
      case None => m.(startProbe := false)
      case Some(data) => m.(startProbe := false, sessionStarted := Some(now - data.elapsedTime * 1000))
  }

  /**
   * A telemetry notification: the handler first, then the one-shot listener if
   * armed. The listener runs even when the handler ignored the value.
   */
  function OnTelemetry(m: Machine, value: seq<Byte>, now: int): (r: Reaction)
    ensures r.outputs == if m.status != Idle && Telemetry(value, now).Some?
                         then [TreadmillDataEvent(Telemetry(value, now).value)] else []
    ensures r.state.lastData == if m.status == ManualMode && Telemetry(value, now).Some?
                                then Telemetry(value, now) else m.lastData
    ensures !r.state.startProbe
    ensures m.startProbe && Telemetry(value, now).Some? ==>
              r.state.sessionStarted == Some(now - Telemetry(value, now).value.elapsedTime * 1000)
    ensures !(m.startProbe && Telemetry(value, now).Some?) ==> r.state.sessionStarted == m.sessionStarted
    ensures r.state == m.(lastData := r.state.lastData, startProbe := false, sessionStarted := r.state.sessionStarted)
  {
    var handled := OnTreadmillData(m, value, now);
    Reaction(OnStartProbe(handled.state, value, now), handled.outputs)
  }

  // ----- Training status -----

  /** `!this.sessionStarted`: no start time, or a start time of 0. */
  predicate StartUnset(started: Option<int>) {
    started.None? || started.value == 0
  }

  /**
   * `onTrainingStatusNotification`. A supported status is stored and dispatched.
   * "Pre-Workout" records the start time. "Post-Workout" boxes up a session from
   * the last telemetry record, deriving (and keeping) a start time if none is
   * set; without a last record it gives up after the dispatch. An unparsable or
   * unsupported status changes nothing. `avg` is the database's average speed
   * between two timestamps.
   */
  function OnTrainingStatus(m: Machine, parsed: Option<RawStatus>, now: int, avg: (int, int) -> real): (r: Reaction)
    ensures parsed.None? || ToTrainingStatus(parsed.value, now).Failure? ==> r == Reaction(m, [])
    ensures parsed.Some? && ToTrainingStatus(parsed.value, now).Success? ==>
              var ts := ToTrainingStatus(parsed.value, now).value;
              && r.state.status == ts.stringFromStatus
              && |r.outputs| >= 1 && r.outputs[0] == TrainingStatusChanged(ts)
              && (ts.stringFromStatus == PreWorkout ==> r.state.sessionStarted == Some(now) && |r.outputs| == 1)
              && (ts.stringFromStatus != PreWorkout && ts.stringFromStatus != PostWorkout ==>
                    r.state.sessionStarted == m.sessionStarted && |r.outputs| == 1)
              && (ts.stringFromStatus == PostWorkout && m.lastData.None? ==>
                    r.state.sessionStarted == m.sessionStarted && |r.outputs| == 1)
    ensures parsed.Some? && ToTrainingStatus(parsed.value, now).Success? &&
            ToTrainingStatus(parsed.value, now).value.stringFromStatus == PostWorkout && m.lastData.Some? ==>
              var last := m.lastData.value;
              var started := if StartUnset(m.sessionStarted) then now - last.elapsedTime * 1000 else m.sessionStarted.value;
              && r.state.sessionStarted == Some(started)
              && r.outputs == [r.outputs[0],
                               SessionEnded(Session(started, now, last.elapsedTime, last.distance,
                                                    avg(started, last.timestamp), last.kcal))]
    ensures m.sessionStarted.Some? ==> r.state.sessionStarted.Some?
    ensures r.state == m.(status := r.state.status, sessionStarted := r.state.sessionStarted)
  {
    match parsed
    case None => Reaction(m, [])
    case Some(raw) =>
      match ToTrainingStatus(raw, now)
      case Failure(_) => Reaction(m, [])
      case Success(ts) =>
        var stored := m.(status := ts.stringFromStatus);
        var announced := [TrainingStatusChanged(ts)];
        var marked := if ts.stringFromStatus == PreWorkout then stored.(sessionStarted := Some(ts.timestamp)) else stored;
        if ts.stringFromStatus != PostWorkout || marked.lastData.None? then Reaction(marked, announced)
        else
          var last := marked.lastData.value;
          var started := if StartUnset(marked.sessionStarted) then now - last.elapsedTime * 1000 else marked.sessionStarted.value;
          var session := Session(started, ts.timestamp, last.elapsedTime, last.distance,
                                 avg(started, last.timestamp), last.kcal);
          Reaction(marked.(sessionStarted := Some(started)), announced + [SessionEnded(session)])
  }

  // ----- The whole controller -----

  /** One event, dispatched to its handler. */
  function Step(m: Machine, e: Event, avg: (int, int) -> real): Reaction {
    match e
    case Connect(outcome, now) => OnConnect(m, outcome, now)
    case LinkDropped => OnDisconnected(m)
    case RetryTimerFired(o) => OnRetryTimer(m, o)
    case LeakedTimerFired(o) => OnLeakedTimer(m, o)
    case CancelReconnect => OnCancelReconnect(m)
    case Disconnect => OnDisconnect(m)
    case SetTargetSpeed(s) => AssignTargetSpeed(m, s)
    case IncreaseSpeed(d) => OnIncreaseSpeed(m, d)
    case DecreaseSpeed(d) => OnDecreaseSpeed(m, d)
    case TreadmillDataNotification(v, now) => OnTelemetry(m, v, now)
    case TrainingStatusNotification(p, now) => OnTrainingStatus(m, p, now, avg)
  }

  /** The controller's transition function, for a given average-speed query. */
  function Handler(avg: (int, int) -> real): (Machine, Event) -> Reaction {
    (m: Machine, e: Event) => Step(m, e, avg)
  }

  /** Feeds a sequence of events through `step`, one after another; the effects are concatenated in order. */
  function Replay(step: (Machine, Event) -> Reaction, m: Machine, es: seq<Event>): Reaction
    decreases |es|
  {
    if |es| == 0 then Reaction(m, [])
    else
      var first := step(m, es[0]);
      var rest := Replay(step, first.state, es[1..]);
      Reaction(rest.state, first.outputs + rest.outputs)
  }

  /** The controller over a sequence of events. */
  function Run(m: Machine, es: seq<Event>, avg: (int, int) -> real): Reaction {
    Replay(Handler(avg), m, es)
  }
}

=== FILE: treadmill_props.dfy ===
/**
 * Properties of whole runs of the `Treadmill` controller: what holds after any
 * sequence of events, and how the reconnection and session logic behaves over
 * several events.
 */
module TreadmillProps {
  import opened Wrappers
  import opened Wire
  import opened Status
  import opened Treadmill

  // ----- Running events -----

  /** Replaying two sequences of events one after the other is replaying their concatenation. */
  lemma {:induction false} ReplayAppend(step: (Machine, Event) -> Reaction, m: Machine, xs: seq<Event>, ys: seq<Event>)
    ensures var first := Replay(step, m, xs);
            var second := Replay(step, first.state, ys);
            Replay(step, m, xs + ys) == Reaction(second.state, first.outputs + second.outputs)
    decreases |xs|
  {
    if |xs| == 0 {
      assert xs + ys == ys;
    } else {
      var r := step(m, xs[0]);
      assert (xs + ys)[0] == xs[0] && (xs + ys)[1..] == xs[1..] + ys;
      var tail := Replay(step, r.state, xs[1..]);
      var after := Replay(step, tail.state, ys);
      ReplayAppend(step, r.state, xs[1..], ys);
      assert r.outputs + (tail.outputs + after.outputs) == (r.outputs + tail.outputs) + after.outputs;
    }
  }

  /** Running two sequences of events one after the other is running their concatenation. */
  lemma RunAppend(m: Machine, xs: seq<Event>, ys: seq<Event>, avg: (int, int) -> real)
    ensures var first := Run(m, xs, avg);
            var second := Run(first.state, ys, avg);
            Run(m, xs + ys, avg) == Reaction(second.state, first.outputs + second.outputs)
  {
    ReplayAppend(Handler(avg), m, xs, ys);
  }

  /** The first event is handled, then the rest run from the state it leaves. */
  lemma RunCons(m: Machine, es: seq<Event>, avg: (int, int) -> real)
    requires |es| > 0
    ensures var first := Step(m, es[0], avg);
            var rest := Run(first.state, es[1..], avg);
            Run(m, es, avg) == Reaction(rest.state, first.outputs + rest.outputs)
  {
    assert Handler(avg)(m, es[0]) == Step(m, es[0], avg);
  }

  /** A single event runs as its handler. */
  lemma RunOne(m: Machine, e: Event, avg: (int, int) -> real)
    ensures Run(m, [e], avg) == Step(m, e, avg)
  {
    RunCons(m, [e], avg);
    assert [e][1..] == [];
  }

  // ----- The backoff schedule -----

  lemma {:induction false} Pow2Grows(a: nat, b: nat)
    requires a <= b
    ensures Pow2(a) <= Pow2(b)
    decreases b
  {
    if a < b {
      Pow2Grows(a, b - 1);
    }
  }

  /** Attempts one to five wait 1 s, 2 s, 4 s, 8 s and 16 s; later ones stay at 16 s. */
  lemma BackoffSchedule(n: nat)
    requires n >= 1
    ensures n == 1 ==> Backoff(n) == 1000
    ensures n == 2 ==> Backoff(n) == 2000
    ensures n == 3 ==> Backoff(n) == 4000
    ensures n == 4 ==> Backoff(n) == 8000
    ensures n >= 5 ==> Backoff(n) == 16000
  {
    if n >= 5 {
      Pow2Grows(4, n - 1);
      assert Pow2(4) == 16;
    } else {
      assert Pow2(3) == 8;
    }
  }

  /** The delay never shrinks from one attempt to the next. */
  lemma BackoffMonotonic(a: nat, b: nat)
    requires 1 <= a <= b
    ensures Backoff(a) <= Backoff(b)
  {
    Pow2Grows(a - 1, b - 1);
  }

  // ----- What every run keeps -----

  /**
   * The controller's invariant: at most five attempts are ever counted, a
   * reconnecting controller has counted at least one, and the target speed lies
   * within the clamp.
   */
  predicate Valid(m: Machine) {
    && m.reconnectAttempts <= MaxReconnectAttempts
    && (m.connection == Reconnecting ==> m.reconnectAttempts >= 1)
    && 0.0 <= m.targetSpeed <= MaxTargetSpeed
  }

  lemma InitialValid()
    ensures Valid(Initial)
  {
  }

  /** Every handler keeps the invariant. */
  lemma StepValid(m: Machine, e: Event, avg: (int, int) -> real)
    requires Valid(m)
    ensures Valid(Step(m, e, avg).state)
  {
    match e
    case TreadmillDataNotification(v, now) =>
      assert OnTelemetry(m, v, now).state.targetSpeed == m.targetSpeed;
    case TrainingStatusNotification(p, now) =>
      assert OnTrainingStatus(m, p, now, avg).state.reconnectAttempts == m.reconnectAttempts;
    case _ =>
  }

  /** The invariant holds after any sequence of events. */
  lemma {:induction false} RunValid(m: Machine, es: seq<Event>, avg: (int, int) -> real)
    requires Valid(m)
    ensures Valid(Run(m, es, avg).state)
    decreases |es|
  {
    if |es| > 0 {
      RunCons(m, es, avg);
      StepValid(m, es[0], avg);
      RunValid(Step(m, es[0], avg).state, es[1..], avg);
    }
  }

  /**
   * Every timer the controller schedules waits one of the five backoff delays,
   * and every "reconnecting" announcement counts an attempt from 1 to 5.
   */
  predicate RetriesBounded(outs: seq<Output>) {
    forall o :: o in outs ==>
      && (o.ScheduleRetry? ==> o.delay in {1000, 2000, 4000, 8000, 16000})
      && (o.ConnectionStateChanged? && o.state == Reconnecting ==>
            o.attempt.Some? && 1 <= o.attempt.value <= MaxReconnectAttempts)
  }

  lemma AttemptBounded(m: Machine)
    requires m.reconnectAttempts < MaxReconnectAttempts
    ensures RetriesBounded(AttemptReconnect(m).outputs)
  {
    BackoffSchedule(m.reconnectAttempts + 1);
  }

  /** `connect` neither schedules a retry nor announces one. */
  lemma ConnectRetriesBounded(m: Machine, outcome: ConnectOutcome, now: int)
    ensures RetriesBounded(OnConnect(m, outcome, now).outputs)
  {
    var r := OnConnect(m, outcome, now);
    assert forall o :: o in r.outputs ==> !o.ScheduleRetry? && !(o.ConnectionStateChanged? && o.state == Reconnecting);
  }

  /** A training status notification only announces the status and a finished session. */
  lemma TrainingStatusRetriesBounded(m: Machine, p: Option<RawStatus>, now: int, avg: (int, int) -> real)
    ensures RetriesBounded(OnTrainingStatus(m, p, now, avg).outputs)
  {
    var r := OnTrainingStatus(m, p, now, avg);
    assert forall o :: o in r.outputs ==> o.TrainingStatusChanged? || o.SessionEnded?;
  }

  /** A link drop or a retry timer schedules only backoff delays and announces only attempts 1 to 5. */
  lemma RetryRetriesBounded(m: Machine, o: RetryOutcome)
    requires Valid(m)
    ensures RetriesBounded(OnDisconnected(m).outputs)
    ensures RetriesBounded(OnRetryTimer(m, o).outputs)
    ensures RetriesBounded(OnLeakedTimer(m, o).outputs)
  {
    assert RetriesBounded(OnDisconnected(m).outputs) by {
      if m.wasConnected && m.reconnectAttempts < MaxReconnectAttempts {
        AttemptBounded(m);
      }
    }
    assert RetriesBounded(OnRetryTimer(m, o).outputs) by {
      if m.timer == Pending && o == RetryFailed && m.reconnectAttempts < MaxReconnectAttempts {
        AttemptBounded(m.(timer := Fired));
      }
    }
    assert RetriesBounded(OnLeakedTimer(m, o).outputs) by {
      if m.leaked > 0 && o == RetryFailed && m.reconnectAttempts < MaxReconnectAttempts {
        AttemptBounded(m.(leaked := m.leaked - 1));
      }
    }
  }

  lemma StepRetriesBounded(m: Machine, e: Event, avg: (int, int) -> real)
    requires Valid(m)
    ensures RetriesBounded(Step(m, e, avg).outputs)
  {
    match e
    case LinkDropped => RetryRetriesBounded(m, RetryFailed);
    case RetryTimerFired(o) => RetryRetriesBounded(m, o);
    case LeakedTimerFired(o) => RetryRetriesBounded(m, o);
    case Connect(outcome, now) => ConnectRetriesBounded(m, outcome, now);
    case TrainingStatusNotification(p, now) => TrainingStatusRetriesBounded(m, p, now, avg);
    case _ =>
  }

  /** Over any run, no timer waits anything but a backoff delay and no attempt past the fifth is announced. */
  lemma {:induction false} RunRetriesBounded(m: Machine, es: seq<Event>, avg: (int, int) -> real)
    requires Valid(m)
    ensures RetriesBounded(Run(m, es, avg).outputs)
    decreases |es|
  {
    if |es| > 0 {
      var r := Step(m, es[0], avg);
      RunCons(m, es, avg);
      StepRetriesBounded(m, es[0], avg);
      StepValid(m, es[0], avg);
      RunRetriesBounded(r.state, es[1..], avg);
    }
  }

  /** Once a start time is known it is never forgotten: no handler resets it. */
  lemma StepKeepsSessionStart(m: Machine, e: Event, avg: (int, int) -> real)
    requires m.sessionStarted.Some?
    ensures Step(m, e, avg).state.sessionStarted.Some?
  {
  }

  lemma {:induction false} RunKeepsSessionStart(m: Machine, es: seq<Event>, avg: (int, int) -> real)
    requires m.sessionStarted.Some?
    ensures Run(m, es, avg).state.sessionStarted.Some?
    decreases |es|
  {
    if |es| > 0 {
      RunCons(m, es, avg);
      StepKeepsSessionStart(m, es[0], avg);
      RunKeepsSessionStart(Step(m, es[0], avg).state, es[1..], avg);
    }
  }

  // ----- Reconnection scenarios -----

  /** `n` copies of the event `e`. */
  function Repeat(e: Event, n: nat): (es: seq<Event>)
    ensures |es| == n && forall i :: 0 <= i < n ==> es[i] == e
  {
    if n == 0 then [] else [e] + Repeat(e, n - 1)
  }

  /**
   * A dropped link followed by five failed attempts: the controller announces
   * attempts 1 to 5 with delays of 1, 2, 4, 8 and 16 s, then gives up. It
   * still remembers having been connected and keeps the count at 5. Each
   * retry fires before the next is armed, so only a timer already pending at
   * the drop is leaked.
   */
  lemma RetriesExhausted(m: Machine, avg: (int, int) -> real)
    requires m.wasConnected && m.reconnectAttempts == 0
    ensures var r := Run(m, [LinkDropped] + Repeat(RetryTimerFired(RetryFailed), 5), avg);
            && r.state.connection == Disconnected && r.state.wasConnected && r.state.reconnectAttempts == 5
            && r.state.leaked == m.leaked + (if m.timer == Pending then 1 else 0)
            && r.outputs == [ConnectionStateChanged(Reconnecting, Some(1)), ScheduleRetry(1000),
                             ConnectionStateChanged(Reconnecting, Some(2)), ScheduleRetry(2000),
                             ConnectionStateChanged(Reconnecting, Some(3)), ScheduleRetry(4000),
                             ConnectionStateChanged(Reconnecting, Some(4)), ScheduleRetry(8000),
                             ConnectionStateChanged(Reconnecting, Some(5)), ScheduleRetry(16000),
                             ConnectionStateChanged(Disconnected, None), TreadmillDisconnectedEvent]
  {
    var fail := RetryTimerFired(RetryFailed);
    var step := Handler(avg);
    var s1 := AttemptReconnect(m);
    DropStep(m, avg);
    var s2 := AttemptReconnect(s1.state.(timer := Fired));
    FailedRetryStep(s1.state, avg);
    var s3 := AttemptReconnect(s2.state.(timer := Fired));
    FailedRetryStep(s2.state, avg);
    var s4 := AttemptReconnect(s3.state.(timer := Fired));
    FailedRetryStep(s3.state, avg);
    var s5 := AttemptReconnect(s4.state.(timer := Fired));
    FailedRetryStep(s4.state, avg);
    var s6 := GiveUp(s5.state.(timer := Fired));
    FailedRetryStep(s5.state, avg);
    BackoffSchedule(1);
    BackoffSchedule(2);
    BackoffSchedule(3);
    BackoffSchedule(4);
    BackoffSchedule(5);
    ReplaySix(step, m, LinkDropped, fail);
  }

  /** A link drop is handled by `onDisconnected`. */
  lemma DropStep(m: Machine, avg: (int, int) -> real)
    ensures Handler(avg)(m, LinkDropped) == OnDisconnected(m)
    ensures m.wasConnected && m.reconnectAttempts < MaxReconnectAttempts ==> OnDisconnected(m) == AttemptReconnect(m)
  {
  }

  /** A failed retry with the timer armed is a fresh attempt while attempts remain, and gives up after. */
  lemma FailedRetryStep(m: Machine, avg: (int, int) -> real)
    requires m.timer == Pending
    ensures Handler(avg)(m, RetryTimerFired(RetryFailed)) == OnRetryTimer(m, RetryFailed)
    ensures m.reconnectAttempts < MaxReconnectAttempts ==> OnRetryTimer(m, RetryFailed) == AttemptReconnect(m.(timer := Fired))
    ensures m.reconnectAttempts >= MaxReconnectAttempts ==> OnRetryTimer(m, RetryFailed) == GiveUp(m.(timer := Fired))
  {
  }

  /** An event followed by five copies of another, replayed one by one. */
  lemma ReplaySix(step: (Machine, Event) -> Reaction, m: Machine, e: Event, f: Event)
    ensures var s1 := step(m, e);
            var s2 := step(s1.state, f);
            var s3 := step(s2.state, f);
            var s4 := step(s3.state, f);
            var s5 := step(s4.state, f);
            var s6 := step(s5.state, f);
            Replay(step, m, [e] + Repeat(f, 5)) ==
              Reaction(s6.state, s1.outputs + s2.outputs + s3.outputs + s4.outputs + s5.outputs + s6.outputs)
  {
    var s1 := step(m, e);
    var s2 := step(s1.state, f);
    var s3 := step(s2.state, f);
    var s4 := step(s3.state, f);
    var s5 := step(s4.state, f);
    var s6 := step(s5.state, f);
    var r1 := Replay(step, s5.state, Repeat(f, 1));
    assert r1 == Reaction(s6.state, s6.outputs) by {
      ReplayCons(step, s5.state, f, Repeat(f, 0));
      assert s6.outputs + [] == s6.outputs;
    }
    var r2 := Replay(step, s4.state, Repeat(f, 2));
    assert r2 == Reaction(s6.state, s5.outputs + r1.outputs) by {
      ReplayCons(step, s4.state, f, Repeat(f, 1));
    }
    var r3 := Replay(step, s3.state, Repeat(f, 3));
    assert r3 == Reaction(s6.state, s4.outputs + r2.outputs) by {
      ReplayCons(step, s3.state, f, Repeat(f, 2));
    }
    var r4 := Replay(step, s2.state, Repeat(f, 4));
    assert r4 == Reaction(s6.state, s3.outputs + r3.outputs) by {
      ReplayCons(step, s2.state, f, Repeat(f, 3));
    }
    var r5 := Replay(step, s1.state, Repeat(f, 5));
    assert r5 == Reaction(s6.state, s2.outputs + r4.outputs) by {
      ReplayCons(step, s1.state, f, Repeat(f, 4));
    }
    ReplayCons(step, m, e, Repeat(f, 5));
    assert s1.outputs + (s2.outputs + (s3.outputs + (s4.outputs + (s5.outputs + s6.outputs))))
           == s1.outputs + s2.outputs + s3.outputs + s4.outputs + s5.outputs + s6.outputs;
  }

  /** Replaying a non-empty trace handles its first event, then the rest from the state that leaves. */
  lemma ReplayCons(step: (Machine, Event) -> Reaction, m: Machine, x: Event, rest: seq<Event>)
    ensures var first := step(m, x);
            var tail := Replay(step, first.state, rest);
            Replay(step, m, [x] + rest) == Reaction(tail.state, first.outputs + tail.outputs)
  {
    assert ([x] + rest)[1..] == rest;
  }

  /** After the retries are exhausted a further link drop gives up at once. */
  lemma NoRetryAfterExhaustion(m: Machine)
    requires m.reconnectAttempts == MaxReconnectAttempts
    ensures OnDisconnected(m).state.connection == Disconnected
    ensures OnDisconnected(m).outputs == [ConnectionStateChanged(Disconnected, None), TreadmillDisconnectedEvent]
  {
  }

  /**
   * A timer that fires without a GATT server leaves the controller
   * "reconnecting" with no retry armed: later timer events change nothing and
   * request nothing.
   */
  lemma {:induction false} StuckAfterNoGatt(m: Machine, es: seq<Event>, avg: (int, int) -> real)
    requires m.connection == Reconnecting && m.timer == Pending
    requires forall i :: 0 <= i < |es| ==> es[i].RetryTimerFired?
    ensures Run(OnRetryTimer(m, NoGatt).state, es, avg) == Reaction(m.(timer := Fired), [])
    decreases |es|
  {
    if |es| > 0 {
      var stuck := m.(timer := Fired);
      RunCons(stuck, es, avg);
      assert Step(stuck, es[0], avg) == Reaction(stuck, []);
      StuckAfterNoGatt(m, es[1..], avg);
    }
  }

  /** The link is forgotten: disconnected, no reconnection wish, no timer pending, named or leaked. */
  predicate Quiet(m: Machine) {
    m.connection == Disconnected && !m.wasConnected && m.timer != Pending && m.leaked == 0
  }

  /** Events other than a user's `connect`. */
  predicate NoConnect(es: seq<Event>) {
    forall i :: 0 <= i < |es| ==> !es[i].Connect?
  }

  /** An effect that would bring the link back: a retry, a reconnection, or any state but "disconnected". */
  predicate Revives(o: Output) {
    o.ScheduleRetry? || o == TreadmillReconnectedEvent || (o.ConnectionStateChanged? && o.state != Disconnected)
  }

  /** None of the effects brings the link back. */
  predicate NoRevival(outs: seq<Output>) {
    forall o :: o in outs ==> !Revives(o)
  }

  /** One event other than `connect` keeps a quiet controller quiet and revives nothing. */
  lemma StepQuiet(m: Machine, e: Event, avg: (int, int) -> real)
    requires Quiet(m) && !e.Connect?
    ensures Quiet(Step(m, e, avg).state)
    ensures NoRevival(Step(m, e, avg).outputs)
  {
    match e
    case LinkDropped => DropQuiet(m);
    case RetryTimerFired(o) => assert OnRetryTimer(m, o) == Reaction(m, []);
    case LeakedTimerFired(o) => assert OnLeakedTimer(m, o) == Reaction(m, []);
    case CancelReconnect => CancelQuiet(m);
    case Disconnect => DisconnectQuiet(m);
    case SetTargetSpeed(_) => SpeedEventsQuiet(m, e, avg);
    case IncreaseSpeed(_) => SpeedEventsQuiet(m, e, avg);
    case DecreaseSpeed(_) => SpeedEventsQuiet(m, e, avg);
    case TreadmillDataNotification(_, _) => DataEventsQuiet(m, e, avg);
    case TrainingStatusNotification(_, _) => DataEventsQuiet(m, e, avg);
  }

  lemma DropQuiet(m: Machine)
    requires Quiet(m)
    ensures Quiet(OnDisconnected(m).state) && NoRevival(OnDisconnected(m).outputs)
  {
    assert OnDisconnected(m) == GiveUp(m);
  }

  lemma CancelQuiet(m: Machine)
    requires m.leaked == 0
    ensures Quiet(OnCancelReconnect(m).state) && NoRevival(OnCancelReconnect(m).outputs)
  {
    var outs := OnCancelReconnect(m).outputs;
    assert outs == ClearTimer(m) + [ConnectionStateChanged(Disconnected, None)];
    assert forall o :: o in outs ==> o == ClearRetry || o == ConnectionStateChanged(Disconnected, None);
  }

  lemma DisconnectQuiet(m: Machine)
    requires m.leaked == 0
    ensures Quiet(OnDisconnect(m).state) && NoRevival(OnDisconnect(m).outputs)
  {
    var outs := OnDisconnect(m).outputs;
    var stop := if m.hasProfile then [StopNotifications(TreadmillDataChar), StopNotifications(TrainingStatusChar)] else [];
    assert outs == ClearTimer(m) + stop + [ConnectionStateChanged(Disconnected, None), TreadmillDisconnectedEvent];
    assert forall o :: o in outs ==>
             (o == ClearRetry || o.StopNotifications? || o == ConnectionStateChanged(Disconnected, None) || o == TreadmillDisconnectedEvent);
  }

  lemma SpeedEventsQuiet(m: Machine, e: Event, avg: (int, int) -> real)
    requires Quiet(m) && (e.SetTargetSpeed? || e.IncreaseSpeed? || e.DecreaseSpeed?)
    ensures Quiet(Step(m, e, avg).state)
    ensures NoRevival(Step(m, e, avg).outputs)
  {
  }

  lemma DataEventsQuiet(m: Machine, e: Event, avg: (int, int) -> real)
    requires Quiet(m) && (e.TreadmillDataNotification? || e.TrainingStatusNotification?)
    ensures Quiet(Step(m, e, avg).state)
    ensures NoRevival(Step(m, e, avg).outputs)
  {
    if e.TrainingStatusNotification? {
      assert forall o :: o in OnTrainingStatus(m, e.parsed, e.now, avg).outputs ==> o.TrainingStatusChanged? || o.SessionEnded?;
    }
  }

  /** A quiet controller stays quiet until the user connects again. */
  lemma {:induction false} QuietUntilConnect(m: Machine, es: seq<Event>, avg: (int, int) -> real)
    requires Quiet(m) && NoConnect(es)
    ensures Quiet(Run(m, es, avg).state)
    ensures NoRevival(Run(m, es, avg).outputs)
    decreases |es|
  {
    if |es| > 0 {
      var r := Step(m, es[0], avg);
      RunCons(m, es, avg);
      StepQuiet(m, es[0], avg);
      QuietUntilConnect(r.state, es[1..], avg);
    }
  }

  /**
   * After `cancelReconnect` or `disconnect`, when no overwritten timer is
   * pending, no event short of a new `connect` brings the link back: no retry
   * is scheduled, no reconnection is announced and the controller stays
   * disconnected. `LeakedTimerRevives` shows why the leak must be excluded.
   */
  lemma NoRevivalAfterCancel(m: Machine, es: seq<Event>, avg: (int, int) -> real)
    requires m.leaked == 0 && NoConnect(es)
    ensures var r := Run(m, [CancelReconnect] + es, avg);
            r.state.connection == Disconnected && NoRevival(r.outputs)
    ensures var r := Run(m, [Disconnect] + es, avg);
            r.state.connection == Disconnected && NoRevival(r.outputs)
  {
    assert var r := Run(m, [CancelReconnect] + es, avg);
           r.state.connection == Disconnected && NoRevival(r.outputs) by {
      RunAppend(m, [CancelReconnect], es, avg);
      RunOne(m, CancelReconnect, avg);
      CancelQuiet(m);
      QuietUntilConnect(OnCancelReconnect(m).state, es, avg);
    }
    assert var r := Run(m, [Disconnect] + es, avg);
           r.state.connection == Disconnected && NoRevival(r.outputs) by {
      RunAppend(m, [Disconnect], es, avg);
      RunOne(m, Disconnect, avg);
      DisconnectQuiet(m);
      QuietUntilConnect(OnDisconnect(m).state, es, avg);
    }
  }

  /** Five events replayed one by one. */
  lemma ReplayFive(step: (Machine, Event) -> Reaction, m: Machine, a: Event, b: Event, c: Event, d: Event, e: Event)
    ensures var s1 := step(m, a).state;
            var s2 := step(s1, b).state;
            var s3 := step(s2, c).state;
            var s4 := step(s3, d).state;
            Replay(step, m, [a, b, c, d, e]).state == step(s4, e).state
  {
    var s1 := step(m, a).state;
    var s2 := step(s1, b).state;
    var s3 := step(s2, c).state;
    var s4 := step(s3, d).state;
    ReplayCons(step, s4, e, []);
    ReplayCons(step, s3, d, [e]);
    ReplayCons(step, s2, c, [d, e]);
    ReplayCons(step, s1, b, [c, d, e]);
    ReplayCons(step, m, a, [b, c, d, e]);
    assert [a] + [b, c, d, e] == [a, b, c, d, e];
    assert [b] + [c, d, e] == [b, c, d, e];
    assert [c] + [d, e] == [c, d, e];
    assert [d] + [e] == [d, e];
    assert [e] + [] == [e];
  }

  /** `cancelReconnect` is handled by `OnCancelReconnect`. */
  lemma CancelStep(m: Machine, avg: (int, int) -> real)
    ensures Handler(avg)(m, CancelReconnect) == OnCancelReconnect(m)
  {
  }

  /** While a leaked timer remains, its successful callback reconnects and announces it. */
  lemma LeakedReconnect(m: Machine, avg: (int, int) -> real)
    requires m.leaked > 0
    ensures var revived := Step(m, LeakedTimerFired(Reconnected), avg);
            revived.state.connection == Connected && TreadmillReconnectedEvent in revived.outputs
  {
    assert Step(m, LeakedTimerFired(Reconnected), avg) == OnLeakedTimer(m, Reconnected);
  }

  /** The trace of `LeakedTimerRevives`, one handler at a time. */
  lemma LeakTrace(m: Machine)
    requires m.timer != Pending
    ensures var m1 := OnConnect(m, Established(None), 0).state;
            var m2 := OnDisconnected(m1).state;
            var m3 := OnRetryTimer(m2, RetryFailed).state;
            var m4 := OnDisconnected(m3).state;
            var m5 := OnCancelReconnect(m4).state;
            && m4.leaked == m.leaked + 1
            && m5.connection == Disconnected && m5.timer == NoTimer && !m5.wasConnected && m5.leaked == m.leaked + 1
  {
    var m1 := OnConnect(m, Established(None), 0).state;
    assert m1.wasConnected && m1.reconnectAttempts == 0 && m1.timer == m.timer && m1.leaked == m.leaked;
    var m2 := OnDisconnected(m1).state;
    assert m2.timer == Pending && m2.leaked == m.leaked && m2.reconnectAttempts == 1 && m2.wasConnected;
    var m3 := OnRetryTimer(m2, RetryFailed).state;
    assert m3.timer == Pending && m3.leaked == m.leaked && m3.reconnectAttempts == 2 && m3.wasConnected;
  }

  /** Connect, drop, failed retry, drop, cancel: the run is those five handlers in turn. */
  lemma DropDuringRetryRun(m: Machine, avg: (int, int) -> real)
    ensures var m1 := OnConnect(m, Established(None), 0).state;
            var m2 := OnDisconnected(m1).state;
            var m3 := OnRetryTimer(m2, RetryFailed).state;
            var m4 := OnDisconnected(m3).state;
            Run(m, [Connect(Established(None), 0), LinkDropped, RetryTimerFired(RetryFailed),
                    LinkDropped, CancelReconnect], avg).state == OnCancelReconnect(m4).state
  {
    var step := Handler(avg);
    var m1 := OnConnect(m, Established(None), 0).state;
    var m2 := OnDisconnected(m1).state;
    var m3 := OnRetryTimer(m2, RetryFailed).state;
    var m4 := OnDisconnected(m3).state;
    assert step(m, Connect(Established(None), 0)).state == m1;
    DropStep(m1, avg);
    assert step(m2, RetryTimerFired(RetryFailed)).state == m3;
    DropStep(m3, avg);
    CancelStep(m4, avg);
    ReplayFive(step, m, Connect(Established(None), 0), LinkDropped, RetryTimerFired(RetryFailed),
               LinkDropped, CancelReconnect);
  }

  /**
   * A drop while a retry is pending leaks that timer, and neither
   * `cancelReconnect` nor `disconnect` can reach it. From any controller
   * without a pending timer (a new one, say): after connect, drop, failed
   * retry (the GATT connection came up but discovery threw), drop and cancel,
   * the controller is "disconnected" with no handle set, yet one more timer is
   * leaked, and it still fires and can reconnect.
   */
  lemma LeakedTimerRevives(m: Machine, avg: (int, int) -> real)
    requires m.timer != Pending
    ensures var cancelled := Run(m, [Connect(Established(None), 0), LinkDropped, RetryTimerFired(RetryFailed),
                                     LinkDropped, CancelReconnect], avg).state;
            && cancelled.connection == Disconnected && cancelled.timer == NoTimer && !cancelled.wasConnected
            && cancelled.leaked == m.leaked + 1
            && var revived := Step(cancelled, LeakedTimerFired(Reconnected), avg);
               revived.state.connection == Connected && TreadmillReconnectedEvent in revived.outputs
  {
    var m4 := OnDisconnected(OnRetryTimer(OnDisconnected(OnConnect(m, Established(None), 0).state).state,
                                          RetryFailed).state).state;
    var cancelled := OnCancelReconnect(m4).state;
    assert Run(m, [Connect(Established(None), 0), LinkDropped, RetryTimerFired(RetryFailed),
                   LinkDropped, CancelReconnect], avg).state == cancelled by {
      DropDuringRetryRun(m, avg);
    }
    LeakTrace(m);
    LeakedReconnect(cancelled, avg);
  }

  // ----- Speed adjustment scenarios -----

  /**
   * `increaseSpeed` past the 12 mph cap in manual mode: the stored target is
   * clamped to 12, but the control point is sent the unclamped sum.
   */
  lemma UnclampedIncrease(m: Machine, increment: real)
    requires m.status == ManualMode && CurrentSpeed(m) + increment > MaxTargetSpeed
    ensures var r := OnIncreaseSpeed(m, increment);
            && r.state.targetSpeed == MaxTargetSpeed
            && r.outputs == [TargetSpeedChanged(MaxTargetSpeed), WriteSetSpeed(CurrentSpeed(m) + increment)]
  {
  }

  /** Speed changes start from the last telemetry speed when there is one, not from the stored target. */
  lemma AdjustFromTelemetry(m: Machine, d: TreadmillData, delta: real)
    requires m.lastData == Some(d)
    requires MinDecreasedSpeed <= d.speed - delta <= MaxTargetSpeed && 0.0 <= d.speed + delta <= MaxTargetSpeed
    ensures OnDecreaseSpeed(m, delta).state.targetSpeed == d.speed - delta
    ensures OnIncreaseSpeed(m, delta).state.targetSpeed == d.speed + delta
  {
  }

  /** Outside manual mode neither adjustment writes to the control point. */
  lemma NoWriteOutsideManualMode(m: Machine, delta: real)
    requires m.status != ManualMode
    ensures forall o :: o in OnIncreaseSpeed(m, delta).outputs ==> !o.WriteSetSpeed?
    ensures forall o :: o in OnDecreaseSpeed(m, delta).outputs ==> !o.WriteSetSpeed?
  {
  }

  // ----- Session scenarios -----

  const PostWorkoutStatus: RawStatus := RawStatus(0x0F, "Post-Workout")

  /**
   * `sessionStarted` is not reset when a session ends: a second "Post-Workout"
   * with no "Pre-Workout" in between reports the same start as the first, as
   * long as that start is not the instant 0, which would count as unset again.
   */
  lemma StaleStartReused(m: Machine, now1: int, now2: int, avg: (int, int) -> real)
    requires m.lastData.Some?
    requires var last := m.lastData.value;
             (if StartUnset(m.sessionStarted) then now1 - last.elapsedTime * 1000 else m.sessionStarted.value) != 0
    ensures var r := Run(m, [TrainingStatusNotification(Some(PostWorkoutStatus), now1),
                             TrainingStatusNotification(Some(PostWorkoutStatus), now2)], avg);
            && |r.outputs| == 4 && r.outputs[1].SessionEnded? && r.outputs[3].SessionEnded?
            && r.outputs[1].session.started == r.outputs[3].session.started
  {
    var e1 := TrainingStatusNotification(Some(PostWorkoutStatus), now1);
    var e2 := TrainingStatusNotification(Some(PostWorkoutStatus), now2);
    assert ToTrainingStatus(PostWorkoutStatus, now1).Success?;
    assert ToTrainingStatus(PostWorkoutStatus, now2).Success?;
    var s1 := OnTrainingStatus(m, Some(PostWorkoutStatus), now1, avg);
    var started := s1.state.sessionStarted.value;
    assert s1.state.lastData == m.lastData && s1.outputs[1].session.started == started;
    var s2 := OnTrainingStatus(s1.state, Some(PostWorkoutStatus), now2, avg);
    assert !StartUnset(s1.state.sessionStarted);
    assert s2.outputs[1].session.started == started;
    RunAppend(m, [e1], [e2], avg);
    RunOne(m, e1, avg);
    RunOne(s1.state, e2, avg);
    assert Run(m, [e1, e2], avg).outputs == s1.outputs + s2.outputs by {
      assert [e1, e2] == [e1] + [e2];
    }
  }

  /** A start time of 0 counts as unset, so it is derived from the last record as if missing. */
  lemma ZeroStartDerived(m: Machine, now: int, avg: (int, int) -> real)
    requires m.lastData.Some? && m.sessionStarted == Some(0)
    ensures var r := OnTrainingStatus(m, Some(PostWorkoutStatus), now, avg);
            r.state.sessionStarted == Some(now - m.lastData.value.elapsedTime * 1000)
            && r.outputs[1].session.started == now - m.lastData.value.elapsedTime * 1000
  {
    assert ToTrainingStatus(PostWorkoutStatus, now).Success?;
  }

  /** While "Idle" a telemetry notification, decodable or not, changes nothing unless a start probe is armed. */
  lemma IdleTelemetryIgnored(m: Machine, v: seq<Wire.Byte>, now: int)
    requires m.status == Idle && !m.startProbe
    ensures OnTelemetry(m, v, now) == Reaction(m, [])
  {
  }

  /**
   * Connecting mid-workout arms the start probe even while the handler ignores
   * telemetry, so the first telemetry value after connecting sets the start time
   * from its elapsed time.
   */
  lemma ProbeSetsStart(m: Machine, v: seq<Wire.Byte>, now: int)
    requires m.startProbe && Ftms.Decode(v).Success?
    ensures OnTelemetry(m, v, now).state.sessionStarted == Some(now - Ftms.Decode(v).value.elapsedTime * 1000)
    ensures !OnTelemetry(m, v, now).state.startProbe
  {
  }
}

=== FILE: units.dfy ===
/**
 * The unit conversions and the clock formatting that turn a decoded
 * notification into the record the application displays and stores.
 *
 * Arithmetic is exact (`real`); JavaScript's `Math.round` is rounding to the
 * nearest integer with halves going up, i.e. `floor(x + 0.5)`.
 */
module Units {
  import opened Wrappers

  /** `Math.round(x)`: the nearest integer, halves rounded up. */
  function Round(x: real): (n: int)
    ensures x - 0.5 < n as real <= x + 0.5
  {
    (x + 0.5).Floor
  }

  /** Rounding never reverses the order of two values. */
  lemma RoundMonotonic(x: real, y: real)
    requires x <= y
    ensures Round(x) <= Round(y)
  {
    assert (x + 0.5).Floor as real <= x + 0.5 <= y + 0.5;
  }

  /** The factor the source uses for one km/h in mph. */
  const MphPerKmph: real := 0.6213712

  /** The factor the source uses for one metre in miles. */
  const MilesPerMeter: real := 0.000621371

  /** `kmphToMph`: the speed in mph, to one decimal. */
  function KmphToMph(kmph: real): (mph: real)
    ensures -0.05 < mph - kmph * MphPerKmph <= 0.05
    ensures (mph * 10.0).Floor as real == mph * 10.0
  {
    Round(kmph * MphPerKmph * 10.0) as real / 10.0
  }

  /** `metersToMiles`: the distance in miles, to two decimals. */
  function MetersToMiles(meters: real): (miles: real)
    ensures -0.005 < miles - meters * MilesPerMeter <= 0.005
    ensures (miles * 100.0).Floor as real == miles * 100.0
  {
    Round(meters * MilesPerMeter * 100.0) as real / 100.0
  }

  /** A faster speed never displays as slower. */
  lemma KmphToMphMonotonic(a: real, b: real)
    requires a <= b
    ensures KmphToMph(a) <= KmphToMph(b)
  {
    RoundMonotonic(a * MphPerKmph * 10.0, b * MphPerKmph * 10.0);
  }

  /** A longer distance never displays as shorter. */
  lemma MetersToMilesMonotonic(a: real, b: real)
    requires a <= b
    ensures MetersToMiles(a) <= MetersToMiles(b)
  {
    RoundMonotonic(a * MilesPerMeter * 100.0, b * MilesPerMeter * 100.0);
  }

  /** Sample conversions: 10 km/h is 6.2 mph and 1609 m is 1.00 mile. */
  lemma SampleConversions()
    ensures KmphToMph(10.0) == 6.2
    ensures MetersToMiles(1609.0) == 1.0
    ensures KmphToMph(0.0) == 0.0
  {
    assert Round(62.13712) == 62;
    assert Round(99.9785939) == 100;
  }

  // ----- formatTime -----

  const SecondsPerDay: nat := 86400

  /**
   * The first second of the year 10000. From there on `toISOString` writes a
   * six-digit signed year, and characters 11 to 19 are no longer the clock.
   */
  const EndOfYear9999: nat := 253_402_300_800

  /** The decimal digit character for `d`. */
  function Digit(d: nat): (c: char)
    requires d < 10
    ensures '0' <= c <= '9'
  {
    (48 + d) as char
  }

  /** The value of a decimal digit character. */
  function DigitValue(c: char): (d: nat)
    requires '0' <= c <= '9'
    ensures d < 10 && Digit(d) == c
  {
    c as int - 48
  }

  /** A two-digit, zero-padded field. */
  function TwoDigits(n: nat): (s: string)
    requires n < 100
    ensures |s| == 2 && '0' <= s[0] <= '9' && '0' <= s[1] <= '9'
    ensures DigitValue(s[0]) * 10 + DigitValue(s[1]) == n
  {
    [Digit(n / 10), Digit(n % 10)]
  }

  /**
   * `formatTime`: the `HH:MM:SS` part of the ISO form of the instant `seconds`
   * after the epoch, that is the time of day in UTC. A duration of a day or more
   * wraps: the hours are `(seconds / 3600) mod 24`.
   */
  function FormatTime(seconds: nat): (s: string)
    requires seconds < EndOfYear9999
    ensures |s| == 8 && s[2] == ':' && s[5] == ':'
  {
    var t := seconds % SecondsPerDay;
    TwoDigits(t / 3600) + ":" + TwoDigits(t % 3600 / 60) + ":" + TwoDigits(t % 60)
  }

  /** Whether `c` is a clock string `HH:MM:SS` with HH < 24, MM < 60 and SS < 60. */
  predicate IsClock(c: string) {
    && |c| == 8 && c[2] == ':' && c[5] == ':'
    && (forall i :: i in {0, 1, 3, 4, 6, 7} ==> 0 <= i < |c| && '0' <= c[i] <= '9')
    && DigitValue(c[0]) * 10 + DigitValue(c[1]) < 24
    && DigitValue(c[3]) * 10 + DigitValue(c[4]) < 60
    && DigitValue(c[6]) * 10 + DigitValue(c[7]) < 60
  }

  /** Reads a clock string back as seconds since midnight. */
  function ParseClock(c: string): (r: Option<nat>)
    ensures r.Some? <==> IsClock(c)
    ensures r.Some? ==> r.value < SecondsPerDay
  {
    if !IsClock(c) then None
    else
      Some((DigitValue(c[0]) * 10 + DigitValue(c[1])) * 3600
           + (DigitValue(c[3]) * 10 + DigitValue(c[4])) * 60
           + DigitValue(c[6]) * 10 + DigitValue(c[7]))
  }

  /** The displayed clock reads back as the time of day it was formatted from. */
  lemma ParseFormatTime(seconds: nat)
    requires seconds < EndOfYear9999
    ensures ParseClock(FormatTime(seconds)) == Some(seconds % SecondsPerDay)
  {
    var t := seconds % SecondsPerDay;
    var c := FormatTime(seconds);
    var h, m, s := TwoDigits(t / 3600), TwoDigits(t % 3600 / 60), TwoDigits(t % 60);
    assert c == h + ":" + m + ":" + s;
    assert c[0] == h[0] && c[1] == h[1] && c[3] == m[0] && c[4] == m[1] && c[6] == s[0] && c[7] == s[1];
    assert IsClock(c);
    assert t == (t / 3600) * 3600 + (t % 3600 / 60) * 60 + t % 60;
  }

  /** Every clock string is the display of the time of day it denotes. */
  lemma FormatParseClock(c: string)
    requires ParseClock(c).Some?
    ensures FormatTime(ParseClock(c).value) == c
  {
    var hh := DigitValue(c[0]) * 10 + DigitValue(c[1]);
    var mm := DigitValue(c[3]) * 10 + DigitValue(c[4]);
    var ss := DigitValue(c[6]) * 10 + DigitValue(c[7]);
    var t := ParseClock(c).value;
    assert t == hh * 3600 + mm * 60 + ss;
    ClockFieldsOf(hh, mm, ss);
    assert forall i :: i in {0, 1, 3, 4, 6, 7} ==> '0' <= c[i] <= '9';
    TwoDigitsOf(c[0], c[1]);
    TwoDigitsOf(c[3], c[4]);
    TwoDigitsOf(c[6], c[7]);
    assert FormatTime(t) == [c[0], c[1]] + ":" + [c[3], c[4]] + ":" + [c[6], c[7]];
    assert c == [c[0], c[1]] + ":" + [c[3], c[4]] + ":" + [c[6], c[7]];
  }

  /** Hours, minutes and seconds of a time of day are recovered by division. */
  lemma ClockFieldsOf(hh: int, mm: int, ss: int)
    requires 0 <= hh < 24 && 0 <= mm < 60 && 0 <= ss < 60
    ensures var t := hh * 3600 + mm * 60 + ss;
            t % SecondsPerDay == t && t / 3600 == hh && t % 3600 / 60 == mm && t % 60 == ss
  {
  }

  /** Two digit characters are the two-digit field of the number they spell. */
  lemma TwoDigitsOf(a: char, b: char)
    requires '0' <= a <= '9' && '0' <= b <= '9'
    ensures TwoDigits(DigitValue(a) * 10 + DigitValue(b)) == [a, b]
  {
  }

  /** Sample clocks: 3725 s is one hour, two minutes and five seconds; a day wraps to midnight. */
  lemma SampleClocks()
    ensures FormatTime(3725) == "01:02:05"
    ensures FormatTime(0) == "00:00:00"
    ensures FormatTime(86400) == "00:00:00"
    ensures FormatTime(65535) == "18:12:15"
  {
    OneHourTwoMinutesFive();
    Midnights();
    LastUint16Second();
  }

  lemma OneHourTwoMinutesFive()
    ensures FormatTime(3725) == "01:02:05"
  {
  }

  lemma Midnights()
    ensures FormatTime(0) == "00:00:00"
    ensures FormatTime(86400) == "00:00:00"
  {
  }

  lemma LastUint16Second()
    ensures FormatTime(65535) == "18:12:15"
  {
  }
}

=== FILE: wire.dfy ===
/**
 * Little-endian field access on a notification buffer, as performed by the
 * DataView getters (`getUint8`, `getUint16(pos, true)`, `getInt16(pos, true)`)
 * that the telemetry decoder calls. Every getter is bounds-checked: reading
 * past the end of the buffer throws instead of returning a value.
 */
module Wire {
  import opened Wrappers

  /** One octet of a characteristic value. */
  type Byte = b: int | 0 <= b < 256

  /** The two ways decoding a telemetry notification throws. */
  datatype DecodeError =
    | OutOfBounds              // a DataView getter read past the end of the buffer
    | MultiPacketNotSupported  // the "More Data" flag announced a continuation frame

  /** Encodings a field of the treadmill data record can use. */
  datatype FieldKind = U8 | U16 | I16 | U24

  /** Octets a field of this kind occupies. */
  function Width(k: FieldKind): nat {
    match k
    case U8 => 1
    case U16 => 2
    case I16 => 2
    case U24 => 3
  }

  /** The values a field of this kind can carry. */
  predicate InRange(k: FieldKind, x: int) {
    match k
    case U8 => 0 <= x < 0x100
    case U16 => 0 <= x < 0x1_0000
    case I16 => -0x8000 <= x < 0x8000
    case U24 => 0 <= x < 0x100_0000
  }

  /** 2 to the power `n`. */
  function Pow2(n: nat): (p: nat)
    ensures p >= 1
  {
    if n == 0 then 1 else 2 * Pow2(n - 1)
  }

  /** `getUint8(pos)`. */
  function GetUint8(v: seq<Byte>, pos: nat): (r: Result<int, DecodeError>)
    ensures r.Success? <==> pos < |v|
    ensures r.Success? ==> 0 <= r.value < 0x100
  {
    if pos < |v| then Success(v[pos]) else Failure(OutOfBounds)
  }

  /** `getUint16(pos, true)`: low octet first. */
  function GetUint16(v: seq<Byte>, pos: nat): (r: Result<int, DecodeError>)
    ensures r.Success? <==> pos + 2 <= |v|
    ensures r.Success? ==> 0 <= r.value < 0x1_0000
  {
    if pos + 2 <= |v| then Success(v[pos] as int + v[pos + 1] as int * 0x100) else Failure(OutOfBounds)
  }

  /** `getInt16(pos, true)`: the same two octets read as two's complement. */
  function GetInt16(v: seq<Byte>, pos: nat): (r: Result<int, DecodeError>)
    ensures r.Success? <==> pos + 2 <= |v|
    ensures r.Success? ==> -0x8000 <= r.value < 0x8000
  {
    var u :- GetUint16(v, pos);
    Success(if u >= 0x8000 then u - 0x1_0000 else u)
  }

  /** A successful `getInt16` is the little-endian pair of octets, less 2^16 when the top bit is set. */
  lemma Int16Octets(v: seq<Byte>, pos: nat)
    requires pos + 2 <= |v|
    ensures var u := v[pos] as int + v[pos + 1] as int * 0x100;
            GetInt16(v, pos) == Success(if u < 0x8000 then u else u - 0x1_0000)
  {
  }

  /**
   * Total distance: `getUint16(pos, true) + (getUint8(pos + 2) << 16)`. The
   * shifted octet is below 2^8, so the 32-bit shift never wraps.
   */
  function GetUint24(v: seq<Byte>, pos: nat): (r: Result<int, DecodeError>)
    ensures r.Success? <==> pos + 3 <= |v|
    ensures r.Success? ==> 0 <= r.value < 0x100_0000
  {
    var lo :- GetUint16(v, pos);
    var hi :- GetUint8(v, pos + 2);
    Success(lo + hi * 0x1_0000)
  }

  /** A successful `getUint24` is the three octets read little-endian. */
  lemma Uint24Octets(v: seq<Byte>, pos: nat)
    requires pos + 3 <= |v|
    ensures GetUint24(v, pos) == Success(v[pos] as int + v[pos + 1] as int * 0x100 + v[pos + 2] as int * 0x1_0000)
  {
  }

  /** Reads one field of kind `k` at offset `pos`. */
  function Get(v: seq<Byte>, k: FieldKind, pos: nat): (r: Result<int, DecodeError>)
    ensures r.Success? <==> pos + Width(k) <= |v|
    ensures r.Failure? ==> r.error == OutOfBounds
    ensures r.Success? ==> InRange(k, r.value)
  {
    match k
    case U8 => GetUint8(v, pos)
    case U16 => GetUint16(v, pos)
    case I16 => GetInt16(v, pos)
    case U24 => GetUint24(v, pos)
  }

  /** The octets a field of kind `k` holding `x` is transmitted as (the peripheral's side). */
  function Encode(k: FieldKind, x: int): (r: seq<Byte>)
    requires InRange(k, x)
    ensures |r| == Width(k)
  {
    match k
    case U8 => [x]
    case U16 => [x % 0x100, x / 0x100]
    case I16 =>
      var u := if x < 0 then x + 0x1_0000 else x;
      [u % 0x100, u / 0x100]
    case U24 => [x % 0x100, (x / 0x100) % 0x100, x / 0x1_0000]
  }

  /** Reading back an encoded field yields the value, wherever it sits in the buffer. */
  lemma GetEncode(pre: seq<Byte>, k: FieldKind, x: int, post: seq<Byte>)
    requires InRange(k, x)
    ensures Get(pre + Encode(k, x) + post, k, |pre|) == Success(x)
  {
    var v := pre + Encode(k, x) + post;
    assert v[|pre|] == Encode(k, x)[0];
    assert Width(k) >= 2 ==> v[|pre| + 1] == Encode(k, x)[1];
    assert Width(k) == 3 ==> v[|pre| + 2] == Encode(k, x)[2];
  }

  /** Conversely, the octets a successful read covers are the encoding of the value read. */
  lemma EncodeGet(v: seq<Byte>, k: FieldKind, pos: nat)
    requires Get(v, k, pos).Success?
    ensures Encode(k, Get(v, k, pos).value) == v[pos..pos + Width(k)]
  {
    match k
    case U8 =>
    case U16 =>
      LowOctet(v[pos], v[pos + 1]);
    case I16 =>
      LowOctet(v[pos], v[pos + 1]);
    case U24 =>
      var b: int := v[pos + 1];
      var c: int := v[pos + 2];
      LowOctet(v[pos], b + c * 0x100);
      LowOctet(b, c);
      assert v[pos] as int + b * 0x100 + c * 0x1_0000 == v[pos] as int + (b + c * 0x100) * 0x100;
  }

  /** An octet plus a multiple of 256 splits back into the octet and the multiplier. */
  lemma LowOctet(a: int, b: int)
    requires 0 <= a < 0x100
    ensures (a + b * 0x100) % 0x100 == a && (a + b * 0x100) / 0x100 == b
  {
  }

  /** A read depends only on the octets it covers: prepending shifts it, appending leaves it alone. */
  lemma GetFrame(pre: seq<Byte>, v: seq<Byte>, post: seq<Byte>, k: FieldKind, pos: nat)
    requires pos + Width(k) <= |v|
    ensures Get(pre + v + post, k, |pre| + pos) == Get(v, k, pos)
  {
    var w := pre + v + post;
    assert w[|pre| + pos] == v[pos];
    assert Width(k) >= 2 ==> w[|pre| + pos + 1] == v[pos + 1];
    assert Width(k) == 3 ==> w[|pre| + pos + 2] == v[pos + 2];
  }
}

=== FILE: wrappers.dfy ===
/**
 * The two outcome types of the model: an optional value (a record that may be
 * missing, such as `lastData`) and a read that either yields a value or throws.
 */
module Wrappers {

  /** A value that may be absent: JavaScript's `undefined` made explicit. */
  datatype Option<+T> = None | Some(value: T)

  /**
   * A value, or the error a JavaScript read would throw. The three members
   * below let a chain of reads be written with `:-`, stopping at the first
   * error and passing it on unchanged.
   */
  datatype Result<+R, +E> = Success(value: R) | Failure(error: E) {

    /** Whether the chain stops here. */
    predicate IsFailure() {
      Failure?
    }

    /** The same error, at the type the enclosing read returns. */
    function PropagateFailure<U>(): Result<U, E>
      requires Failure?
    {
      Failure(error)
    }

    /** The value a successful read binds. */
    function Extract(): R
      requires Success?
    {
      value
    }
  }
}
